=== FILE: README.md ===
# Reviewer-assignment engine of pr-reviewer-service, in Dafny

This project models the core of a Go service that assigns code reviewers to
pull requests. The model has four parts:

- **Candidate selector** (`Selector`). `RandomPicker.Pick` copies the
  candidate ids, shuffles the copy with Fisher–Yates and keeps at most
  `limit` of them. `PickOne` is `Pick` with limit one. The generator's
  choices are a parameter `draws`: `draws(k) % (i + 1)` is the index
  `rand.Shuffle` picks at step k. Every proof holds for every random
  outcome.
- **PostgreSQL store** (`Store`), modelled as a sequential state machine.
  - The database is an immutable `State`: teams, users (id → username,
    team, active flag), pull requests (id → name, author, status, creation
    and merge time) and the reviewer relation.
  - Each transaction (`CreateTeam`, `SetUserActive`, `CreatePullRequest`,
    `MergePullRequest`, `ReassignReviewer`) either commits a new state or
    fails. A failure carries no state, because the transaction rolled back.
  - `GetTeam` and `GetPullRequest` are reads.
  - `ActiveTeamMembers` is the candidate filter `listActiveTeamMembersTx`.
  - The clock reading `NOW()` is a `nat` parameter.
  - The reviewer selection is a function value supplied by the caller.
- **Service** (`Service`). `New` installs the random picker when none
  is given. The service hands the store the picker's `Pick`, which the
  store calls with limit 2 at creation, or its `PickOne`, for
  reassignment.
- **Error taxonomy** (`Errors`): the seven codes, the `AppError`
  constructors with their statuses, and `Error()`. `Errors.ErrorText` is
  `Error()` (internal/domain/errors.go:27-32) by definition: the wrapped
  error's text when there is one, the message otherwise.

## What is proved

- `Valid` is the invariant every transaction keeps, whatever the pickers
  return: users' teams exist, authors and reviewers are users, reviewer
  sets belong to existing pull requests, a pull request has a merge time
  exactly when it is merged, and the user scan order lists every user
  once.
- Two picker contracts are stated: `PickContract` and `PickOneContract`.
  The random picker meets both. Under them:
  - creation by an author whose id is not empty assigns min(2, |pool|)
    distinct active members of the author's team other than the author;
  - when no user holds the empty id, reassignment succeeds exactly when
    the pool is non-empty, keeps the reviewer count, and swaps in an
    active member of the old reviewer's team who was not yet assigned.
- Merging is idempotent, and a merged pull request never changes again.
- When the creation picker honours `PickContract`, at most two reviewers
  per pull request is an invariant of every step. The store itself does
  not cap what the picker returns: a picker that ignores the limit can
  give a pull request three reviewers.
- The creation lemmas need only one part of `Valid`: the user scan order
  holds no id twice.

Two behaviours of the code are stated as they are, with concrete witnesses:

1. **Reassignment may assign the author to their own pull request.** The
   exclusion list is the old reviewer plus the current reviewers, which
   leaves the author in (`ReassignMayAssignAuthor`). "No author reviews
   their own pull request" is therefore proved only for the other steps
   (`StepKeepsNoSelfReview`).
2. **An empty id is never excluded.** A user with the empty id who writes
   a pull request can be assigned to review it
   (`EmptyAuthorIdReviewsOwnPullRequest`). A user with the empty id who
   already reviews a pull request is offered again when another reviewer
   is replaced, and the insert then fails with a database error although
   the pool is non-empty (`EmptyIdCandidateBlocksReassignment`). The HTTP
   layer rejects empty member ids (internal/http/server.go:85-89), so
   these states are reachable only through the store itself.

## Model

| member | source | states |
|---|---|---|
| Selector.ShuffleSteps | internal/service/selector.go:36-38 | each Fisher–Yates swap step keeps the length and the multiset of the sequence, so the shuffle permutes the copy whatever the generator draws |
| Selector.Pick | internal/service/selector.go:27-45 | the result is empty when limit ≤ 0 or there are no ids; its length is min(limit, \|ids\|); it is a sub-multiset of ids, so every element comes from ids; distinct ids give distinct results |
| Selector.PermutationPrefix | internal/service/selector.go:40-44 | truncating a permutation of ids to its first n elements draws from ids without replacement and keeps distinctness |
| Selector.PickOne | internal/service/selector.go:48-54 | found iff ids is non-empty; a found id is in ids; not found gives ""; a singleton yields its element |
| Selector.PickContractSelection | internal/service/selector.go:27-45 | any picker meeting the Pick contract returns, from a duplicate-free pool, distinct ids of the pool, and exactly PickSize of them |
| Selector.RandomPickerMeetsContracts | internal/service/selector.go:27-54 | the random Pick and PickOne meet PickContract and PickOneContract for every sequence of generator choices |
| Errors.NewTeamExistsError | internal/domain/errors.go:38-40 | code TEAM_EXISTS, status 400, message "team already exists", the given wrapped error |
| Errors.NewNotFoundError | internal/domain/errors.go:42-44 | code NOT_FOUND, status 404, the caller's message and wrapped error |
| Errors.NewPRExistsError | internal/domain/errors.go:46-48 | code PR_EXISTS, status 409, message "pull request already exists" |
| Errors.NewPRMergedError | internal/domain/errors.go:50-52 | code PR_MERGED, status 409; with no wrapped error, Error() is the message |
| Errors.NewNotAssignedError | internal/domain/errors.go:54-56 | code NOT_ASSIGNED, status 409; Error() is the message |
| Errors.NewNoCandidateError | internal/domain/errors.go:58-60 | code NO_CANDIDATE, status 409; Error() is the message |
| Errors.CodeTextInjective | internal/domain/errors.go:9-17 | two codes have the same wire text iff they are the same code |
| Errors.NotFoundTextIsCause | internal/domain/errors.go:27-32 | a not-found error built over pgx's no-rows error reports "no rows in result set", not its message |
| Store.LastWrite | internal/storage/store.go:48-66 | for a listed id, the entry a run of upserts leaves behind is the listed entry carrying that id that no later entry overrides (last writer wins); unlisted ids have none |
| Store.UpsertAll | internal/storage/store.go:48-66 | after the member upserts, the user ids are the old ids plus the listed ones; each listed id holds its last listed entry in the new team; other users are unchanged; the scan order stays duplicate-free and in step with the rows |
| Store.GetTeam | internal/storage/store.go:75-86 | NOT_FOUND ("team not found", no-rows cause) iff the team is unknown; otherwise a member is in the roster iff a user row with that id, username and flag names the team |
| Store.CreateTeam | internal/storage/store.go:30-73 | TEAM_EXISTS with no cause iff the name is taken; otherwise the team is added, every listed id is upserted into it with its last listed values, other users and all pull requests are unchanged, and the returned roster holds each last write; when every existing user's team exists, the returned roster is exactly the last writes |
| Store.SetUserActive | internal/storage/store.go:88-98 | NOT_FOUND iff the user is unknown; otherwise only that user's active flag changes, and the updated user is returned |
| Store.FilterEligible | internal/storage/store.go:320-330 | an id is in the result iff the scan meets it and it is an active member of the team not in the exclusion set; a duplicate-free scan gives a duplicate-free result |
| Store.ActiveTeamMembers | internal/storage/store.go:306-337 | an id is offered iff it is a user of the team, active, and either empty or not excluded, so the empty id is never excluded |
| Store.InsertReviewers | internal/storage/store.go:132-136 | inserting reviewer rows succeeds iff the ids are distinct, are users and are not already present; the result is the present set plus the ids; a failure is a database error |
| Store.GetPullRequest | internal/storage/store.go:375-392 | NOT_FOUND iff the id is unknown; otherwise the stored row's name, author, status, creation and merge times with its current reviewer set |
| Store.CreatePullRequest | internal/storage/store.go:100-143 | NOT_FOUND "author not found" for an unknown author; then PR_EXISTS for a taken id; otherwise success iff the picked ids can be inserted, a refused insert failing as a raw database error, giving an OPEN pull request created at now whose reviewers are the ids picked from the creation pool with limit 2, with every other pull request unchanged |
| Store.MergePullRequest | internal/storage/store.go:145-167 | NOT_FOUND iff the id is unknown; otherwise the status becomes MERGED, the merge time is set to now only if it was unset, and nothing else changes |
| Store.ReplaceReviewer | internal/storage/store.go:222-228 | replacing the old reviewer's row by the chosen id succeeds iff the chosen id is a user not already reviewing; the new state differs only in that pull request's reviewer set |
| Store.ReassignReviewer | internal/storage/store.go:169-240 | the checks fail in order: NOT_FOUND (pull request), PR_MERGED, NOT_FOUND (reviewer), NOT_ASSIGNED, NO_CANDIDATE when the picker finds nobody; once the picker finds an id, success iff the id is a user not among the other reviewers, and a raw database error otherwise; a success picked the id from the pool and sets that pull request's reviewers to (old set − {old}) ∪ {chosen}, with nothing else changed |
| StoreProperties.CreateTeamPreservesValid | internal/storage/store.go:30-73 | a committed team creation keeps `Valid` |
| StoreProperties.CreatePullRequestPreservesValid | internal/storage/store.go:100-143 | a committed creation keeps `Valid`, whatever the picker returned |
| StoreProperties.MergePullRequestPreservesValid | internal/storage/store.go:145-167 | a committed merge keeps `Valid` |
| StoreProperties.ReassignReviewerPreservesValid | internal/storage/store.go:169-240 | a committed reassignment keeps `Valid`, whatever the picker returned |
| StoreProperties.StepPreservesValid | internal/storage/store.go:30-240 | every step of the machine keeps `Valid` |
| StoreProperties.CreatedTeamReadsBack | internal/storage/store.go:30-86 | creating a new team and reading it back yields exactly the listed ids with their last entries; creating it again fails with TEAM_EXISTS |
| StoreProperties.CreationUnderPickContract | internal/storage/store.go:125-136 | with a picker honouring its contract, creation by an existing author under a new id succeeds with an OPEN pull request and min(2, \|pool\|) reviewers, each an active member of the author's team, the author not among them unless the author's id is empty |
| StoreProperties.EmptyAuthorIdReviewsOwnPullRequest | internal/storage/store.go:307-312 | a lone active author with the empty id is assigned to review their own pull request, whatever the generator does |
| StoreProperties.MergeIsIdempotent | internal/storage/store.go:145-150 | merging twice leaves the state and merge time of the first merge, which is the first clock reading unless a merge time was already set |
| StoreProperties.MergedIsFrozen | internal/storage/store.go:145-187 | no step changes a merged pull request's row or reviewer set |
| StoreProperties.ReassignKeepsReviewerCount | internal/storage/store.go:222-228 | a committed reassignment keeps every pull request's reviewer count |
| StoreProperties.PoolChoice | internal/storage/store.go:211-217 | when no user holds the empty id, a picker honouring its contract finds a replacement iff the pool is non-empty, and it is an active member of the old reviewer's team, neither the old reviewer nor already assigned |
| StoreProperties.ReassignUnderPickOneContract | internal/storage/store.go:206-228 | when no user holds the empty id and the checks pass, reassignment succeeds iff the pool is non-empty, fails otherwise with NO_CANDIDATE, and a success swaps in a good replacement while keeping the count |
| StoreProperties.ReassignMayAssignAuthor | internal/storage/store.go:211-212 | when the author, with a non-empty id, is the only candidate to replace the old reviewer, reassignment with the random PickOne makes the author a reviewer of their own pull request, for every draw |
| StoreProperties.AuthorReviewsOwnPullRequest | internal/storage/store.go:211-212 | in the fixed state where the author a and the old reviewer b are the only active members of one team, replacing b assigns a |
| StoreProperties.EmptyIdCandidateBlocksReassignment | internal/storage/store.go:206-228 | because the empty id is never excluded, replacing b when the empty id already reviews the pull request and is b's only active teammate fails with a database error, although the pool is non-empty |
| StoreProperties.OverlongPickIsStored | internal/storage/store.go:125-136 | the store stores whatever distinct known ids the picker returns: a picker that ignores the limit gives a new pull request three reviewers, breaking the two-reviewer bound |
| StoreProperties.StepKeepsReviewerBound | internal/storage/store.go:131-136 | with a picker honouring its contract, no step gives a pull request more than two reviewers |
| StoreProperties.StepKeepsNoSelfReview | internal/storage/store.go:125-136 | every step except reassignment keeps authors off their own pull requests, given a contract-honouring picker and no empty user id |
| Service.New | internal/service/service.go:34-38 | a missing picker becomes the random picker; a given one is kept |
| Service.CreateTeam | internal/service/service.go:41-43 | succeeds iff the team name is new, otherwise TEAM_EXISTS |
| Service.GetTeam | internal/service/service.go:45-47 | succeeds iff the team exists, otherwise NOT_FOUND |
| Service.SetUserActive | internal/service/service.go:49-51 | succeeds iff the user exists, returning the user with the requested flag; otherwise NOT_FOUND |
| Service.MergePullRequest | internal/service/service.go:59-61 | succeeds iff the pull request exists, returning it merged with a merge time; otherwise NOT_FOUND |
| Service.CreatePullRequest | internal/service/service.go:53-57 | NOT_FOUND for an unknown author and PR_EXISTS for a taken id; the reviewers stored are exactly what the picker's Pick returned for the store's pool and limit 2 |
| Service.ReassignReviewer | internal/service/service.go:63-65 | fails when a check fails; a replacement is exactly what the picker's PickOne found in the store's pool |
| Service.CreationUnderContract | internal/service/service.go:53-57 | with any picker whose Pick honours its contract and an author id that is not empty, creation succeeds iff the author exists and the id is free, and assigns min(2, \|pool\|) active members of the author's team other than the author |
| Service.DefaultCreation | internal/service/service.go:34-57 | for an author id that is not empty, the same holds for the service New builds without a picker |
| Service.ReassignUnderContract | internal/service/service.go:63-65 | with any picker whose PickOne honours its contract and no user holding the empty id, a reassignment that passed its checks fails only with NO_CANDIDATE on an empty pool, and a success is a good replacement |
| Service.DefaultReassignment | internal/service/service.go:34-38 | when no user holds the empty id, the same holds for the service New builds without a picker |
| Service.SingleCandidateBecomesReviewer | internal/service/service.go:53-57 | whenever the creation pool holds exactly one id u, the service New builds without a picker creates the pull request with u as the only reviewer, whatever the generator does |
| Service.SoloReviewerScenario | internal/service/service.go:53-57 | in the fixed state with author u1, active u2 and inactive u3 in one team, u2 becomes the only reviewer |
| Service.NoOtherActiveMemberMeansNoCandidate | internal/service/service.go:63-65 | whenever the checks pass and the replacement pool is empty, the service New builds without a picker fails the reassignment with NO_CANDIDATE and keeps the state |
| Service.NobodyLeftScenario | internal/service/service.go:63-65 | in the fixed state where the old reviewer's only teammate is inactive, reassignment fails with NO_CANDIDATE and keeps the state |
| Service.DefaultPickerWorks | internal/service/service.go:34-38 | the picker New installs when none is given meets both picker contracts, and Pick with limit 1 returns one id from a non-empty pool |
| StoreProperties.SetUserActivePreservesValid | internal/storage/store.go:88-98 | a committed change of a user's active flag keeps `Valid` |

## Left out

- GetUserReviews (store.go:242-267, service.go:67-69): a read-only listing of a reviewer's pull requests. It has no state change and nothing to prove beyond a filter.
- Transport and process code: HTTP routing and JSON, configuration, start-up and migrations. These are I/O.
- Database failures other than constraint violations: failures to begin, query, scan or commit. These come from the driver and the network. Every transaction's error branches for them are left out.
- Row locking (`FOR UPDATE`) and the picker's mutex: these exist for concurrency. Each transaction here is one atomic step.
- The generator (`math/rand` seeded from the clock): it is the `draws` parameter of each call. Reading the generator's state across calls is not modelled.
- Store.GetTeam: the roster is a set, so the `ORDER BY username` ordering (which depends on the database collation) is not modelled.
- Store.GetPullRequest: the reviewer list is a set, so the `ORDER BY reviewer_id` ordering is not modelled.
- Store.ActiveTeamMembers: the candidate query has no `ORDER BY`. The model scans users in first-insertion order. No property proved here depends on this order: all of them speak of which ids are chosen, never of their positions.
- Store.ReassignReviewer: the reviewers read inside the transaction come back unordered. The model uses them only as an exclusion set, as the code does.
- Timestamps: `updated_at` is not modelled. `created_at` is the clock reading at creation.
- The SQL schema is not part of this model. The model assumes these constraints: a foreign key from each reviewer row to users, a primary key on (pull request, reviewer), and a foreign key from author to users. It also assumes PostgreSQL's default constraint names.
- Custom pickers are modelled as pure functions. A picker that keeps state between calls, such as a recording test double, is not modelled.
- `Pick` returning a nil slice versus an empty one: both are the empty sequence.
- No-mutation of the caller's ids by `Pick` is not a separate property. It is inherent in value semantics.

=== FILE: collections.dfy ===
/** Small generic helpers shared by the model: an optional value, the
    duplicate-free predicate on sequences and facts linking sequences to
    their multisets and sets. */
module Collections {

  /** A value that may be absent; stands for Go's nil pointers and nil errors. */
  datatype Option<+T> = None | Some(value: T)

  function Min(a: int, b: int): int
  {
    if a <= b then a else b
  }

  /** No element occurs twice in `s`. */
  predicate NoDup<T(==)>(s: seq<T>)
  {
    forall i, j :: 0 <= i < j < |s| ==> s[i] != s[j]
  }

  /** The elements of a sequence, as a set. */
  function Elems<T>(s: seq<T>): set<T>
  {
    set x | x in s
  }

  /** A prefix keeps at most the occurrences of the whole. */
  lemma PrefixMultiset<T>(s: seq<T>, n: nat)
    requires n <= |s|
    ensures multiset(s[..n]) <= multiset(s)
  {
    assert s == s[..n] + s[n..];
  }

  /** The tail of a duplicate-free sequence is duplicate-free and misses the head. */
  lemma NoDupTail<T>(s: seq<T>)
    requires NoDup(s) && |s| > 0
    ensures NoDup(s[1..])
    ensures s[0] !in s[1..]
  {
    var t := s[1..];
    forall i, j | 0 <= i < j < |t|
      ensures t[i] != t[j]
    {
      assert t[i] == s[i + 1] && t[j] == s[j + 1];
    }
    forall k | 0 <= k < |t|
      ensures t[k] != s[0]
    {
      assert t[k] == s[k + 1];
    }
  }

  /** A non-empty sequence is duplicate-free exactly when its head is not in
      its duplicate-free tail. */
  lemma NoDupCons<T>(s: seq<T>)
    requires |s| > 0
    ensures NoDup(s) <==> s[0] !in s[1..] && NoDup(s[1..])
  {
    if NoDup(s) {
      NoDupTail(s);
    } else {
      var i, j :| 0 <= i < j < |s| && s[i] == s[j];
      if i == 0 {
        assert s[1..][j - 1] == s[0];
      } else {
        assert s[1..][i - 1] == s[1..][j - 1];
      }
    }
  }

  /** In a duplicate-free sequence every value occurs at most once. */
  lemma {:induction false} NoDupCountsAtMostOne<T>(s: seq<T>, x: T)
    requires NoDup(s)
    ensures multiset(s)[x] <= 1
  {
    if |s| > 0 {
      var t := s[1..];
      assert s == [s[0]] + t;
      NoDupTail(s);
      NoDupCountsAtMostOne(t, x);
    }
  }

  /** A value at two distinct positions occurs at least twice. */
  lemma RepeatedCountsTwice<T>(s: seq<T>, i: nat, j: nat)
    requires i < j < |s| && s[i] == s[j]
    ensures multiset(s)[s[i]] >= 2
  {
    var a, b := s[..j], s[j..];
    assert s == a + b;
    assert a[i] == s[i];
    assert b[0] == s[j];
    assert multiset(a)[s[i]] >= 1;
    assert multiset(b)[s[i]] >= 1;
  }

  /** A sub-multiset of a duplicate-free sequence is duplicate-free. */
  lemma SubMultisetNoDup<T>(a: seq<T>, b: seq<T>)
    requires multiset(a) <= multiset(b)
    requires NoDup(b)
    ensures NoDup(a)
  {
    forall i, j | 0 <= i < j < |a|
      ensures a[i] != a[j]
    {
      if a[i] == a[j] {
        RepeatedCountsTwice(a, i, j);
        NoDupCountsAtMostOne(b, a[i]);
        assert false;
      }
    }
  }

  /** A duplicate-free sequence has as many distinct elements as positions. */
  lemma {:induction false} NoDupElemsSize<T>(s: seq<T>)
    requires NoDup(s)
    ensures |Elems(s)| == |s|
  {
    if |s| > 0 {
      var t := s[1..];
      NoDupTail(s);
      NoDupElemsSize(t);
      assert Elems(s) == Elems(t) + {s[0]};
    }
  }
}

=== FILE: errors.dfy ===
/** The domain error taxonomy of internal/domain/errors.go: seven machine
    readable codes, the AppError record with its constructors, and the
    failures a store transaction can end with. */
module Errors {
  import opened Collections

  datatype ErrorCode =
    | TeamExists
    | PRExists
    | PRMerged
    | NotAssigned
    | NoCandidate
    | NotFound
    | Internal

  /** The code as it appears on the wire. */
  function CodeText(c: ErrorCode): string
  {
    match c
    case TeamExists => "TEAM_EXISTS"
    case PRExists => "PR_EXISTS"
    case PRMerged => "PR_MERGED"
    case NotAssigned => "NOT_ASSIGNED"
    case NoCandidate => "NO_CANDIDATE"
    case NotFound => "NOT_FOUND"
    case Internal => "INTERNAL"
  }

  /** The HTTP statuses the constructors use (net/http constants). */
  const StatusBadRequest: int := 400
  const StatusNotFound: int := 404
  const StatusConflict: int := 409
  const StatusInternalServerError: int := 500

  /** The status each kind of error is reported with. */
  function StatusFor(c: ErrorCode): int
  {
    match c
    case TeamExists => StatusBadRequest
    case NotFound => StatusNotFound
    case Internal => StatusInternalServerError
    case _ => StatusConflict
  }

  /** The lower-level Go errors the store wraps or returns: pgx.ErrNoRows
      and PostgreSQL constraint violations naming their constraint. */
  datatype Cause =
    | NoRows
    | UniqueViolation(constraint: string)
    | ForeignKeyViolation(table: string, constraint: string)

  /** The Error() text of a cause (pgconn.PgError renders severity,
      message and SQLSTATE). */
  function CauseText(c: Cause): string
  {
    match c
    case NoRows => "no rows in result set"
    case UniqueViolation(name) =>
      "ERROR: duplicate key value violates unique constraint \"" + name + "\" (SQLSTATE 23505)"
    case ForeignKeyViolation(table, name) =>
      "ERROR: insert or update on table \"" + table + "\" violates foreign key constraint \""
      + name + "\" (SQLSTATE 23503)"
  }

  /** AppError; `err` is the wrapped Go error, None for nil. */
  datatype AppError = AppError(code: ErrorCode, message: string, status: int, err: Option<Cause>)

  /** AppError.Error(): the wrapped error's text when there is one,
      otherwise the message. */
  function ErrorText(e: AppError): string
  {
    match e.err
    case Some(cause) => CauseText(cause)
    case None => e.message
  }

  function NewTeamExistsError(err: Option<Cause>): (e: AppError)
    ensures e.code == TeamExists && e.status == 400 && e.status == StatusFor(e.code)
    ensures e.message == "team already exists" && e.err == err
  {
    AppError(TeamExists, "team already exists", StatusBadRequest, err)
  }

  function NewNotFoundError(message: string, err: Option<Cause>): (e: AppError)
    ensures e.code == NotFound && e.status == 404 && e.status == StatusFor(e.code)
    ensures e.message == message && e.err == err
  {
    AppError(NotFound, message, StatusNotFound, err)
  }

  function NewPRExistsError(err: Option<Cause>): (e: AppError)
    ensures e.code == PRExists && e.status == 409 && e.status == StatusFor(e.code)
    ensures e.message == "pull request already exists" && e.err == err
  {
    AppError(PRExists, "pull request already exists", StatusConflict, err)
  }

  function NewPRMergedError(): (e: AppError)
    ensures e.code == PRMerged && e.status == 409 && e.status == StatusFor(e.code)
    ensures ErrorText(e) == e.message == "cannot mutate merged pull request"
  {
    AppError(PRMerged, "cannot mutate merged pull request", StatusConflict, None)
  }

  function NewNotAssignedError(): (e: AppError)
    ensures e.code == NotAssigned && e.status == 409 && e.status == StatusFor(e.code)
    ensures ErrorText(e) == e.message == "reviewer is not assigned to this pull request"
  {
    AppError(NotAssigned, "reviewer is not assigned to this pull request", StatusConflict, None)
  }

  function NewNoCandidateError(): (e: AppError)
    ensures e.code == NoCandidate && e.status == 409 && e.status == StatusFor(e.code)
    ensures ErrorText(e) == e.message == "no active replacement candidate in team"
  {
    AppError(NoCandidate, "no active replacement candidate in team", StatusConflict, None)
  }

  /** The seven codes are pairwise distinct on the wire. */
  lemma CodeTextInjective(a: ErrorCode, b: ErrorCode)
    ensures CodeText(a) == CodeText(b) <==> a == b
  {
  }

  /** Consequence for the store's not-found errors: their Error() text is
      pgx's "no rows" text, not the message they were built with. */
  lemma NotFoundTextIsCause(message: string)
    ensures ErrorText(NewNotFoundError(message, Some(NoRows))) == "no rows in result set"
    ensures ErrorText(NewTeamExistsError(None)) == "team already exists"
  {
  }

  /** How a store transaction can fail: a domain error, or a database
      error the store returns unwrapped. */
  datatype Failure = App(error: AppError) | Database(cause: Cause)

  /** The code a failure is reported with: its own for domain errors,
      INTERNAL for everything else. */
  function FailureCode(f: Failure): ErrorCode
  {
    match f
    case App(e) => e.code
    case Database(_) => Internal
  }

  /** The outcome of a store or service operation. */
  datatype Result<+T> = Ok(value: T) | Err(failure: Failure)
}

=== FILE: models.dfy ===
/** The records of internal/domain/models.go that the engine exchanges with
    its callers. Timestamps are clock readings (`nat`); ordered lists the
    database returns sorted (team roster by username, reviewers by id) are
    sets here. */
module Models {
  import opened Collections

  /** A user within a team payload. */
  datatype TeamMember = TeamMember(userId: string, username: string, isActive: bool)

  /** A team as submitted for creation: members in request order. */
  datatype Team = Team(teamName: string, members: seq<TeamMember>)

  /** A team as read back: its current roster. */
  datatype TeamRoster = TeamRoster(teamName: string, members: set<TeamMember>)

  /** A single user. */
  datatype User = User(userId: string, username: string, teamName: string, isActive: bool)

  datatype Status = Open | Merged

  /** A pull request with its current reviewer set. */
  datatype PullRequest = PullRequest(
    pullRequestId: string,
    pullRequestName: string,
    authorId: string,
    status: Status,
    assignedReviewers: set<string>,
    createdAt: nat,
    mergedAt: Option<nat>)

  /** CreatePullRequestInput of internal/service/service.go. */
  datatype CreatePullRequestInput = CreatePullRequestInput(
    pullRequestId: string,
    pullRequestName: string,
    authorId: string)
}

=== FILE: selector.dfy ===
/** The candidate selector of internal/service/selector.go: `Pick` copies
    the candidate ids, shuffles the copy with Go's Fisher-Yates shuffle and
    keeps at most `limit` of them; `PickOne` is `Pick` with limit one.

    The generator is not modelled: its choices are a parameter `draws`,
    and step k of the shuffle swaps position i with position
    `draws(k) % (i + 1)`, the index `rand.Shuffle` picks at that step.
    Every sequence of choices the generator can make is some `draws`, so
    every property proved here holds for every random outcome. */
module Selector {
  import opened Collections

  /** The generator's choices: `draws(k) % (i + 1)` is the index picked at
      step k of a shuffle. */
  type Draws = nat -> nat

  /** The selection a picker hands back for limit `limit` over `n` ids. */
  function PickSize(limit: int, n: nat): nat
  {
    if limit <= 0 then 0 else Min(limit, n)
  }

  /** Exchanges the elements at positions i and j. */
  function Swap<T>(s: seq<T>, i: nat, j: nat): (r: seq<T>)
    requires i < |s| && j < |s|
    ensures |r| == |s|
    ensures multiset(r) == multiset(s)
  {
    s[i := s[j]][j := s[i]]
  }

  /** The Fisher-Yates steps of rand.Shuffle from position i down to 1;
      k counts the draws already consumed. */
  function ShuffleSteps<T>(s: seq<T>, i: nat, draws: Draws, k: nat): (r: seq<T>)
    requires i < |s|
    ensures |r| == |s|
    ensures multiset(r) == multiset(s)
    decreases i
  {
    if i == 0 then s
    else ShuffleSteps(Swap(s, i, draws(k) % (i + 1)), i - 1, draws, k + 1)
  }

  /** rand.Shuffle over a whole sequence: a permutation of it. */
  function Shuffle<T>(s: seq<T>, draws: Draws): (r: seq<T>)
    ensures multiset(r) == multiset(s)
  {
    if |s| == 0 then s else ShuffleSteps(s, |s| - 1, draws, 0)
  }

  /** RandomPicker.Pick: up to `limit` ids chosen from `ids` without
      replacement. The input is a value, so the caller's sequence cannot
      change. */
  function Pick(ids: seq<string>, limit: int, draws: Draws): (r: seq<string>)
    ensures limit <= 0 || |ids| == 0 ==> r == []
    ensures |r| == PickSize(limit, |ids|)
    ensures multiset(r) <= multiset(ids)
    ensures forall x :: x in r ==> x in ids
    ensures NoDup(ids) ==> NoDup(r)
  {
    if limit <= 0 || |ids| == 0 then []
    else
      var shuffled := Shuffle(ids, draws);
      assert |shuffled| == |multiset(shuffled)| == |ids|;
      var r := if |shuffled| > limit then shuffled[..limit] else shuffled;
      assert r == shuffled[..|r|];
      PermutationPrefix(shuffled, ids, |r|);
      r
  }

  /** A prefix of a permutation of `ids` draws from `ids` without
      replacement. */
  lemma PermutationPrefix(shuffled: seq<string>, ids: seq<string>, n: nat)
    requires multiset(shuffled) == multiset(ids)
    requires n <= |shuffled|
    ensures multiset(shuffled[..n]) <= multiset(ids)
    ensures forall x :: x in shuffled[..n] ==> x in ids
    ensures NoDup(ids) ==> NoDup(shuffled[..n])
  {
    var r := shuffled[..n];
    PrefixMultiset(shuffled, n);
    assert forall x :: x in r ==> x in multiset(r);
    if NoDup(ids) {
      SubMultisetNoDup(r, ids);
    }
  }

  /** RandomPicker.PickOne: one id from `ids`, or ("", false) when there is none. */
  function PickOne(ids: seq<string>, draws: Draws): (r: (string, bool))
    ensures r.1 <==> |ids| > 0
    ensures r.1 ==> r.0 in ids
    ensures !r.1 ==> r.0 == ""
    ensures |ids| == 1 ==> r == (ids[0], true)
  {
    var picked := Pick(ids, 1, draws);
    if |picked| == 0 then ("", false) else (picked[0], true)
  }

  /** What the store may rely on from the function it is handed for
      creation-time selection: exactly PickSize ids, drawn from the pool
      without replacement. */
  ghost predicate PickContract(pick: (seq<string>, int) -> seq<string>)
  {
    forall ids, limit ::
      && |pick(ids, limit)| == PickSize(limit, |ids|)
      && multiset(pick(ids, limit)) <= multiset(ids)
  }

  /** What the store may rely on from the function it is handed for
      reassignment: found exactly when the pool is non-empty, and then an
      element of the pool. */
  ghost predicate PickOneContract(pickOne: seq<string> -> (string, bool))
  {
    forall ids ::
      && (pickOne(ids).1 <==> |ids| > 0)
      && (pickOne(ids).1 ==> pickOne(ids).0 in ids)
  }

  /** The random picker meets both contracts, whatever the generator does. */
  lemma RandomPickerMeetsContracts(draws: Draws)
    ensures PickContract((ids, limit) => Pick(ids, limit, draws))
    ensures PickOneContract(ids => PickOne(ids, draws))
  {
  }

  /** A picker honouring the contract returns distinct ids from a
      duplicate-free pool, every one of them from the pool. */
  lemma PickContractSelection(pick: (seq<string>, int) -> seq<string>, ids: seq<string>, limit: int)
    requires PickContract(pick)
    requires NoDup(ids)
    ensures NoDup(pick(ids, limit))
    ensures Elems(pick(ids, limit)) <= Elems(ids)
    ensures |Elems(pick(ids, limit))| == PickSize(limit, |ids|)
  {
    var r := pick(ids, limit);
    SubMultisetNoDup(r, ids);
    NoDupElemsSize(r);
    forall x | x in r
      ensures x in ids
    {
      assert x in multiset(r);
    }
  }
}

=== FILE: service.dfy ===
/** The service of internal/service/service.go: it holds a reviewer picker
    and hands the store, per call, the picker's Pick (for creation; the
    store calls it with limit 2) or PickOne (for reassignment). The random picker's generator state at the
    time of a call is the `draws` argument of that call. */
module Service {
  import opened Collections
  import opened Errors
  import opened Models
  import opened Selector
  import opened Store
  import opened StoreProperties

  /** A ReviewerPicker: the random picker, or another implementation given
      by its two operations. */
  datatype Picker =
    | RandomPicker
    | CustomPicker(pick: (seq<string>, int) -> seq<string>, pickOne: seq<string> -> (string, bool))

  datatype Service = Service(picker: Picker)

  /** New: a missing picker is replaced by the random picker. */
  function New(picker: Option<Picker>): (s: Service)
    ensures picker.None? ==> s.picker.RandomPicker?
    ensures picker.Some? ==> s.picker == picker.value
  {
    match picker
    case None => Service(RandomPicker)
    case Some(p) => Service(p)
  }

  /** picker.Pick(ids, limit), dispatched on the implementation. */
  function PickerPick(p: Picker, ids: seq<string>, limit: int, draws: Draws): seq<string>
  {
    match p
    case RandomPicker => Pick(ids, limit, draws)
    case CustomPicker(pick, _) => pick(ids, limit)
  }

  /** picker.PickOne(ids), dispatched on the implementation. */
  function PickerPickOne(p: Picker, ids: seq<string>, draws: Draws): (string, bool)
  {
    match p
    case RandomPicker => PickOne(ids, draws)
    case CustomPicker(_, pickOne) => pickOne(ids)
  }

  /** The closure CreatePullRequest hands the store. */
  function PickFn(p: Picker, draws: Draws): (seq<string>, int) -> seq<string>
  {
    (ids, limit) => PickerPick(p, ids, limit, draws)
  }

  /** The method value ReassignReviewer hands the store. */
  function PickOneFn(p: Picker, draws: Draws): seq<string> -> (string, bool)
  {
    ids => PickerPickOne(p, ids, draws)
  }

  /** The picker New installs by default honours both contracts and finds
      an id whenever one is offered. */
  lemma DefaultPickerWorks(draws: Draws)
    ensures PickContract(PickFn(New(None).picker, draws))
    ensures PickOneContract(PickOneFn(New(None).picker, draws))
    ensures forall ids :: |ids| > 0 ==> |PickFn(New(None).picker, draws)(ids, 1)| == 1
  {
  }

  function CreateTeam(svc: Service, st: State, team: Team): (r: Result<Committed<TeamRoster>>)
    ensures r.Ok? <==> team.teamName !in st.teams
    ensures r.Err? ==> FailureCode(r.failure) == TeamExists
  {
    Store.CreateTeam(st, team)
  }

  function GetTeam(svc: Service, st: State, teamName: string): (r: Result<TeamRoster>)
    ensures r.Ok? <==> teamName in st.teams
    ensures r.Err? ==> FailureCode(r.failure) == NotFound
  {
    Store.GetTeam(st, teamName)
  }

  function SetUserActive(svc: Service, st: State, userId: string, isActive: bool): (r: Result<Committed<User>>)
    ensures r.Ok? <==> userId in st.users
    ensures r.Err? ==> FailureCode(r.failure) == NotFound
    ensures r.Ok? ==> r.value.value.isActive == isActive && r.value.value.userId == userId
  {
    Store.SetUserActive(st, userId, isActive)
  }

  function MergePullRequest(svc: Service, st: State, prId: string, now: nat): (r: Result<Committed<PullRequest>>)
    ensures r.Ok? <==> prId in st.prs
    ensures r.Err? ==> FailureCode(r.failure) == NotFound
    ensures r.Ok? ==> r.value.value.status == Merged && r.value.value.mergedAt.Some?
  {
    Store.MergePullRequest(st, prId, now)
  }

  /** CreatePullRequest: the store's creation with the picker's Pick; the
      reviewers stored are exactly what Pick returned for the pool the
      store offered and limit 2. */
  function CreatePullRequest(svc: Service, st: State, input: CreatePullRequestInput, now: nat, draws: Draws)
    : (r: Result<Committed<PullRequest>>)
    ensures input.authorId !in st.users ==> r.Err? && FailureCode(r.failure) == NotFound
    ensures input.authorId in st.users && input.pullRequestId in st.prs ==>
      r.Err? && FailureCode(r.failure) == PRExists
    ensures r.Ok? ==>
      && input.authorId in st.users
      && r.value.value.assignedReviewers
         == Elems(PickerPick(svc.picker, CreationPool(st, input.authorId), 2, draws))
  {
    Store.CreatePullRequest(st, input, PickFn(svc.picker, draws), now)
  }

  /** ReassignReviewer: the store's reassignment with the picker's PickOne;
      the replacement is exactly what PickOne found in the pool the store
      offered. */
  function ReassignReviewer(svc: Service, st: State, prId: string, oldId: string, draws: Draws)
    : (r: Result<Committed<Reassignment>>)
    ensures !ReassignChecksPass(st, prId, oldId) ==> r.Err?
    ensures r.Ok? ==>
      && oldId in st.users
      && PickerPickOne(svc.picker, ReassignPool(st, prId, oldId), draws) == (r.value.value.replacedBy, true)
  {
    Store.ReassignReviewer(st, prId, oldId, PickOneFn(svc.picker, draws))
  }

  /** Any picker whose Pick honours its contract: creation succeeds exactly
      when the author exists and the id is free, and assigns min(2, |pool|)
      active members of the author's team other than the author. */
  lemma CreationUnderContract(svc: Service, st: State, input: CreatePullRequestInput, now: nat, draws: Draws)
    requires NoDup(st.userOrder)
    requires input.authorId != ""
    requires PickContract(PickFn(svc.picker, draws))
    ensures
      var r := CreatePullRequest(svc, st, input, now, draws);
      r.Ok? <==> input.authorId in st.users && input.pullRequestId !in st.prs
    ensures
      var r := CreatePullRequest(svc, st, input, now, draws);
      r.Ok? ==> GoodCreation(st, input, r.value.value)
  {
    var pick := PickFn(svc.picker, draws);
    var r := Store.CreatePullRequest(st, input, pick, now);
    assert CreatePullRequest(svc, st, input, now, draws) == r;
    if input.authorId in st.users && input.pullRequestId !in st.prs {
      CreationUnderPickContract(st, input, pick, now);
      assert r.value.value == PullRequestView(r.value.state, input.pullRequestId);
      assert r.value.value.assignedReviewers == ReviewersOf(r.value.state, input.pullRequestId);
      assert GoodCreation(st, input, r.value.value);
    }
  }

  /** What a successful creation must achieve: min(2, |pool|) reviewers,
      each an active member of the author's team, the author not among
      them. */
  ghost predicate GoodCreation(st: State, input: CreatePullRequestInput, pr: PullRequest)
    requires input.authorId in st.users
  {
    var picked := pr.assignedReviewers;
    && |picked| == Min(2, |CreationPool(st, input.authorId)|)
    && input.authorId !in picked
    && (forall u :: u in picked ==>
          u in st.users && st.users[u].isActive
          && st.users[u].teamName == st.users[input.authorId].teamName)
  }

  /** End to end with the default picker: creation succeeds exactly when
      the author exists and the id is free, and assigns min(2, |pool|)
      active members of the author's team other than the author. */
  lemma DefaultCreation(st: State, input: CreatePullRequestInput, now: nat, draws: Draws)
    requires NoDup(st.userOrder)
    requires input.authorId != ""
    ensures
      var r := CreatePullRequest(New(None), st, input, now, draws);
      r.Ok? <==> input.authorId in st.users && input.pullRequestId !in st.prs
    ensures
      var r := CreatePullRequest(New(None), st, input, now, draws);
      r.Ok? ==> GoodCreation(st, input, r.value.value)
  {
    DefaultPickerWorks(draws);
    CreationUnderContract(New(None), st, input, now, draws);
  }

  /** What a reassignment that passed its checks must achieve: the
      replacement is an active member of the old reviewer's team, neither
      the old reviewer nor already assigned, and the count is kept. */
  ghost predicate GoodReplacement(st: State, prId: string, oldId: string, c: Committed<Reassignment>)
    requires oldId in st.users
  {
    var chosen := c.value.replacedBy;
    && chosen != oldId && chosen !in ReviewersOf(st, prId)
    && chosen in st.users && st.users[chosen].isActive
    && st.users[chosen].teamName == st.users[oldId].teamName
    && |c.value.pr.assignedReviewers| == |ReviewersOf(st, prId)|
  }

  /** The default picker handed to the store for reassignment honours the
      PickOne contract. */
  lemma DefaultPickOneContract(draws: Draws)
    ensures PickOneContract(PickOneFn(RandomPicker, draws))
  {
    DefaultPickerWorks(draws);
  }

  /** Any picker whose PickOne honours its contract: once the checks pass,
      a reassignment fails only with NO_CANDIDATE on an empty pool, and a
      success is a good replacement. */
  lemma ReassignUnderContract(svc: Service, st: State, prId: string, oldId: string, draws: Draws)
    requires "" !in st.users
    requires ReassignChecksPass(st, prId, oldId)
    requires PickOneContract(PickOneFn(svc.picker, draws))
    ensures
      var r := ReassignReviewer(svc, st, prId, oldId, draws);
      && (r.Ok? <==> |ReassignPool(st, prId, oldId)| > 0)
      && (r.Err? ==> FailureCode(r.failure) == NoCandidate)
      && (r.Ok? ==> GoodReplacement(st, prId, oldId, r.value))
  {
    var pickOne := PickOneFn(svc.picker, draws);
    var r := Store.ReassignReviewer(st, prId, oldId, pickOne);
    assert ReassignReviewer(svc, st, prId, oldId, draws) == r;
    ReassignUnderPickOneContract(st, prId, oldId, pickOne);
    if r.Ok? {
      assert r.value.value.pr == PullRequestView(r.value.state, prId);
      assert r.value.value.pr.assignedReviewers == ReviewersOf(r.value.state, prId);
      assert GoodReplacement(st, prId, oldId, r.value);
    }
  }

  /** End to end with the default picker: once the checks pass, a
      reassignment fails only with NO_CANDIDATE on an empty pool, and a
      success swaps in an active member of the old reviewer's team who was
      not assigned, keeping the reviewer count. */
  lemma DefaultReassignment(st: State, prId: string, oldId: string, draws: Draws)
    requires "" !in st.users
    requires ReassignChecksPass(st, prId, oldId)
    ensures
      var r := ReassignReviewer(New(None), st, prId, oldId, draws);
      && (r.Ok? <==> |ReassignPool(st, prId, oldId)| > 0)
      && (r.Err? ==> FailureCode(r.failure) == NoCandidate)
      && (r.Ok? ==> GoodReplacement(st, prId, oldId, r.value))
  {
    DefaultPickOneContract(draws);
    ReassignUnderContract(New(None), st, prId, oldId, draws);
  }

  /** The creation scenario with one other active member: the author u1 and
      the active u2 in one team, the inactive u3 with them. */
  function SoloReviewerState(): State
  {
    State({"core"},
          map["u1" := UserRow("Alice", "core", true),
              "u2" := UserRow("Bob", "core", true),
              "u3" := UserRow("Carol", "core", false)],
          ["u1", "u2", "u3"], map[], map[])
  }

  lemma SoloReviewerStateIsValid()
    ensures Valid(SoloReviewerState())
  {
  }

  /** u2 is the only candidate for a pull request of u1. */
  lemma SoloReviewerPool()
    ensures CreationPool(SoloReviewerState(), "u1") == ["u2"]
  {
    var pool := CreationPool(SoloReviewerState(), "u1");
    assert "u2" in pool && "u1" !in pool && "u3" !in pool;
    assert |pool| <= 3;
  }

  /** With exactly one candidate in the creation pool, the service built
      without a picker makes that candidate the only reviewer, whatever
      the generator does. */
  lemma SingleCandidateBecomesReviewer(st: State, input: CreatePullRequestInput, now: nat,
                                       u: string, draws: Draws)
    requires input.authorId in st.users && input.pullRequestId !in st.prs
    requires CreationPool(st, input.authorId) == [u]
    ensures
      var r := CreatePullRequest(New(None), st, input, now, draws);
      r.Ok? && r.value.value.assignedReviewers == {u}
  {
    var chosen := Pick([u], 2, draws);
    assert chosen == [u] by {
      assert |chosen| == 1;
      assert chosen[0] in [u];
    }
    assert Elems(chosen) == {u};
    assert u in CreationPool(st, input.authorId);
  }

  /** The instance: u2 is the only reviewer of a pull request of u1. */
  lemma SoloReviewerScenario(draws: Draws)
    ensures
      var r := CreatePullRequest(New(None), SoloReviewerState(),
                                 CreatePullRequestInput("pr-1", "Add search", "u1"), 0, draws);
      r.Ok? && r.value.value.assignedReviewers == {"u2"}
  {
    SoloReviewerPool();
    SingleCandidateBecomesReviewer(SoloReviewerState(), CreatePullRequestInput("pr-1", "Add search", "u1"),
                                   0, "u2", draws);
  }

  /** With an empty replacement pool, the service built without a picker
      fails the reassignment with NO_CANDIDATE and keeps the state, whatever
      the generator does. */
  lemma NoOtherActiveMemberMeansNoCandidate(st: State, prId: string, oldId: string, draws: Draws)
    requires ReassignChecksPass(st, prId, oldId)
    requires ReassignPool(st, prId, oldId) == []
    ensures
      var r := ReassignReviewer(New(None), st, prId, oldId, draws);
      && r == Err(App(NewNoCandidateError()))
      && StateAfter(st, r) == st
  {
    assert !PickOne([], draws).1;
  }

  /** The reassignment scenario with nobody left: the only other member of
      the old reviewer's team is inactive. */
  function NobodyLeftState(): State
  {
    State({"core", "infra"},
          map["a" := UserRow("Alice", "infra", true),
              "b" := UserRow("Bob", "core", true),
              "c" := UserRow("Carol", "core", false)],
          ["a", "b", "c"],
          map["pr-1" := PullRequestRow("Add search", "a", Open, 0, None)],
          map["pr-1" := {"b"}])
  }

  /** The instance: replacing b in NobodyLeftState fails with NO_CANDIDATE. */
  lemma NobodyLeftScenario(draws: Draws)
    ensures
      var r := ReassignReviewer(New(None), NobodyLeftState(), "pr-1", "b", draws);
      r == Err(App(NewNoCandidateError())) && StateAfter(NobodyLeftState(), r) == NobodyLeftState()
  {
    var pool := ReassignPool(NobodyLeftState(), "pr-1", "b");
    assert pool == [] by {
      assert "a" !in pool && "b" !in pool && "c" !in pool;
    }
    NoOtherActiveMemberMeansNoCandidate(NobodyLeftState(), "pr-1", "b", draws);
  }
}

=== FILE: store.dfy ===
/** The PostgreSQL repository of internal/storage/store.go as a sequential
    state machine. The database is an immutable `State`; every transaction
    is one function from a state to either a committed new state or a
    failure. A failure carries no state: the transaction rolled back and
    the caller keeps the state it had. The clock reading NOW() is a
    parameter, and the reviewer selection is a function value supplied by
    the caller, so the store stays agnostic of the selection algorithm. */
module Store {
  import opened Collections
  import opened Errors
  import opened Models

  /** A row of the users table, keyed by user id. */
  datatype UserRow = UserRow(username: string, teamName: string, isActive: bool)

  /** A row of the pull_requests table, keyed by pull request id. */
  datatype PullRequestRow = PullRequestRow(
    name: string,
    authorId: string,
    status: Status,
    createdAt: nat,
    mergedAt: Option<nat>)

  /** The database. `userOrder` is the order in which a scan of the users
      table meets the rows; `reviewers` is the pull_request_reviewers
      relation grouped by pull request. */
  datatype State = State(
    teams: set<string>,
    users: map<string, UserRow>,
    userOrder: seq<string>,
    prs: map<string, PullRequestRow>,
    reviewers: map<string, set<string>>)

  /** A committed transaction: the new state and what the call returns. */
  datatype Committed<+T> = Committed(state: State, value: T)

  const Empty: State := State({}, map[], [], map[], map[])

  /** The invariant every transaction keeps: the scan order lists every
      user once, team names of users exist, authors and reviewers are users,
      reviewer rows belong to existing pull requests, and a pull request
      has a merge time exactly when it is merged. */
  ghost predicate Valid(st: State)
  {
    && NoDup(st.userOrder)
    && (forall u :: u in st.userOrder <==> u in st.users)
    && (forall u :: u in st.users ==> st.users[u].teamName in st.teams)
    && st.reviewers.Keys == st.prs.Keys
    && (forall p :: p in st.prs ==> st.prs[p].authorId in st.users)
    && (forall p, u :: p in st.reviewers && u in st.reviewers[p] ==> u in st.users)
    && (forall p :: p in st.prs ==> (st.prs[p].status == Merged <==> st.prs[p].mergedAt.Some?))
  }

  /** The reviewers currently assigned to a pull request. */
  function ReviewersOf(st: State, prId: string): set<string>
  {
    if prId in st.reviewers then st.reviewers[prId] else {}
  }

  /** The API view of a stored pull request. */
  function PullRequestView(st: State, prId: string): PullRequest
    requires prId in st.prs
  {
    var row := st.prs[prId];
    PullRequest(prId, row.name, row.authorId, row.status, ReviewersOf(st, prId), row.createdAt, row.mergedAt)
  }

  /** GetPullRequest: the stored pull request with its reviewers. */
  function GetPullRequest(st: State, prId: string): (r: Result<PullRequest>)
    ensures r.Ok? <==> prId in st.prs
    ensures r.Err? ==> r.failure == App(NewNotFoundError("pull request not found", Some(NoRows)))
    ensures r.Ok? ==> r.value.pullRequestId == prId && r.value.assignedReviewers == ReviewersOf(st, prId)
    ensures r.Ok? ==>
      var row := st.prs[prId];
      && r.value.pullRequestName == row.name && r.value.authorId == row.authorId
      && r.value.status == row.status
      && r.value.createdAt == row.createdAt && r.value.mergedAt == row.mergedAt
  {
    if prId !in st.prs then Err(App(NewNotFoundError("pull request not found", Some(NoRows))))
    else Ok(PullRequestView(st, prId))
  }

  // ---------------------------------------------------------------- teams

  /** The ids a team payload lists. */
  function MemberIds(members: seq<TeamMember>): set<string>
  {
    set m | m in members :: m.userId
  }

  /** `m` sits at a position of `members` after which no entry carries
      `id`. */
  predicate IsLastEntry(members: seq<TeamMember>, id: string, m: TeamMember)
  {
    exists k :: 0 <= k < |members| && members[k] == m
      && forall j :: k < j < |members| ==> members[j].userId != id
  }

  /** The entry for `id` that a run of upserts leaves behind: the last one
      in the list that carries that id. */
  function LastWrite(members: seq<TeamMember>, id: string): (r: Option<TeamMember>)
    ensures r.Some? <==> id in MemberIds(members)
    ensures r.Some? ==> r.value.userId == id && r.value in members
    ensures r.Some? ==> IsLastEntry(members, id, r.value)
    decreases |members|
  {
    if |members| == 0 then None
    else
      var last := members[|members| - 1];
      var front := members[..|members| - 1];
      assert members == front + [last];
      assert MemberIds(members) == MemberIds(front) + {last.userId};
      if last.userId == id then Some(last)
      else
        var r := LastWrite(front, id);
        assert r.Some? ==> IsLastEntry(members, id, r.value) by {
          if r.Some? {
            var k :| 0 <= k < |front| && front[k] == r.value
                     && forall j :: k < j < |front| ==> front[j].userId != id;
            assert members[k] == r.value;
          }
        }
        r
  }

  /** The roster a freshly created team reads back with: one entry per
      listed id, carrying that id's last entry in the request. */
  function LastWrites(members: seq<TeamMember>): set<TeamMember>
  {
    set id | id in MemberIds(members)
      :: TeamMember(id, LastWrite(members, id).value.username, LastWrite(members, id).value.isActive)
  }

  /** The users row a member entry writes for `team`. */
  function RowFor(m: TeamMember, team: string): UserRow
  {
    UserRow(m.username, team, m.isActive)
  }

  /** INSERT ... ON CONFLICT (user_id) DO UPDATE for one member: a new id is
      appended to the scan order, an existing one is overwritten in place. */
  function Upsert(users: map<string, UserRow>, order: seq<string>, m: TeamMember, team: string)
    : (map<string, UserRow>, seq<string>)
  {
    (users[m.userId := RowFor(m, team)],
     if m.userId in users then order else order + [m.userId])
  }

  /** The member upserts of CreateTeam, executed in list order. */
  function UpsertAll(users: map<string, UserRow>, order: seq<string>, members: seq<TeamMember>, team: string)
    : (r: (map<string, UserRow>, seq<string>))
    ensures r.0.Keys == users.Keys + MemberIds(members)
    ensures forall id :: id in MemberIds(members) ==> r.0[id] == RowFor(LastWrite(members, id).value, team)
    ensures forall id :: id in users && id !in MemberIds(members) ==> r.0[id] == users[id]
    ensures (forall u :: u in order <==> u in users) ==> (forall u :: u in r.1 <==> u in r.0)
    ensures (forall u :: u in order <==> u in users) && NoDup(order) ==> NoDup(r.1)
    decreases |members|
  {
    if |members| == 0 then (users, order)
    else
      var last := members[|members| - 1];
      var front := members[..|members| - 1];
      assert members == front + [last];
      assert MemberIds(members) == MemberIds(front) + {last.userId};
      var prev := UpsertAll(users, order, front, team);
      UpsertKeepsOrder(prev.0, prev.1, last, team);
      Upsert(prev.0, prev.1, last, team)
  }

  /** One upsert keeps the scan order in step with the rows and free of
      duplicates. */
  lemma UpsertKeepsOrder(users: map<string, UserRow>, order: seq<string>, m: TeamMember, team: string)
    ensures (forall u :: u in order <==> u in users) ==>
      var r := Upsert(users, order, m, team);
      forall u :: u in r.1 <==> u in r.0
    ensures (forall u :: u in order <==> u in users) && NoDup(order) ==> NoDup(Upsert(users, order, m, team).1)
  {
    if (forall u :: u in order <==> u in users) && NoDup(order) && m.userId !in users {
      assert m.userId !in order;
    }
  }

  /** The roster of a team: every user whose row names it. */
  function RosterOf(st: State, teamName: string): set<TeamMember>
  {
    set id | id in st.users && st.users[id].teamName == teamName
      :: TeamMember(id, st.users[id].username, st.users[id].isActive)
  }

  /** GetTeam: NOT_FOUND for an unknown name, otherwise the team with the
      current rows of exactly its members. */
  function GetTeam(st: State, teamName: string): (r: Result<TeamRoster>)
    ensures r.Ok? <==> teamName in st.teams
    ensures r.Err? ==> r.failure == App(NewNotFoundError("team not found", Some(NoRows)))
    ensures r.Ok? ==> r.value.teamName == teamName
    ensures r.Ok? ==> forall m :: m in r.value.members <==>
      m.userId in st.users && st.users[m.userId] == UserRow(m.username, teamName, m.isActive)
  {
    if teamName !in st.teams then Err(App(NewNotFoundError("team not found", Some(NoRows))))
    else
      var roster := RosterOf(st, teamName);
      assert forall m :: m in roster <==>
        m.userId in st.users && st.users[m.userId] == UserRow(m.username, teamName, m.isActive) by {
        forall m: TeamMember | m.userId in st.users && st.users[m.userId] == UserRow(m.username, teamName, m.isActive)
          ensures m in roster
        {
          assert m == TeamMember(m.userId, st.users[m.userId].username, st.users[m.userId].isActive);
        }
      }
      Ok(TeamRoster(teamName, roster))
  }

  /** CreateTeam: TEAM_EXISTS for a taken name; otherwise the team is
      inserted and every listed member's row is upserted into it, the last
      entry for an id winning. Pull requests are untouched. */
  function CreateTeam(st: State, team: Team): (r: Result<Committed<TeamRoster>>)
    ensures r.Ok? <==> team.teamName !in st.teams
    ensures r.Err? ==> r.failure == App(NewTeamExistsError(None))
    ensures r.Ok? ==>
      var st' := r.value.state;
      && st'.teams == st.teams + {team.teamName}
      && st'.users.Keys == st.users.Keys + MemberIds(team.members)
      && (forall id :: id in MemberIds(team.members) ==>
            st'.users[id] == RowFor(LastWrite(team.members, id).value, team.teamName))
      && (forall id :: id in st.users && id !in MemberIds(team.members) ==> st'.users[id] == st.users[id])
      && st'.prs == st.prs && st'.reviewers == st.reviewers
      && (st'.users, st'.userOrder) == UpsertAll(st.users, st.userOrder, team.members, team.teamName)
      && r.value.value.teamName == team.teamName
      && (forall id :: id in MemberIds(team.members) ==>
            var m := LastWrite(team.members, id).value;
            TeamMember(id, m.username, m.isActive) in r.value.value.members)
    ensures r.Ok? && (forall u :: u in st.users ==> st.users[u].teamName in st.teams) ==>
      r.value.value.members == LastWrites(team.members)
  {
    if team.teamName in st.teams then Err(App(NewTeamExistsError(None)))
    else
      var written := UpsertAll(st.users, st.userOrder, team.members, team.teamName);
      var st' := st.(teams := st.teams + {team.teamName}, users := written.0, userOrder := written.1);
      var roster := GetTeam(st', team.teamName);
      assert (forall u :: u in st.users ==> st.users[u].teamName in st.teams) ==>
        roster.value.members == LastWrites(team.members) by {
        if forall u :: u in st.users ==> st.users[u].teamName in st.teams {
          FreshRosterIsLastWrites(st, team);
        }
      }
      Ok(Committed(st', roster.value))
  }

  /** When no user belongs to the team yet, the roster after the member
      upserts is exactly the last entry of each listed id. */
  lemma FreshRosterIsLastWrites(st: State, team: Team)
    requires forall u :: u in st.users ==> st.users[u].teamName != team.teamName
    ensures
      var written := UpsertAll(st.users, st.userOrder, team.members, team.teamName);
      RosterOf(st.(teams := st.teams + {team.teamName}, users := written.0, userOrder := written.1), team.teamName)
        == LastWrites(team.members)
  {
    var written := UpsertAll(st.users, st.userOrder, team.members, team.teamName);
    var st' := st.(teams := st.teams + {team.teamName}, users := written.0, userOrder := written.1);
    var got := RosterOf(st', team.teamName);
    var want := LastWrites(team.members);
    forall m | m in got
      ensures m in want
    {
      var id :| id in st'.users && st'.users[id].teamName == team.teamName
        && m == TeamMember(id, st'.users[id].username, st'.users[id].isActive);
      assert id in MemberIds(team.members);
      assert st'.users[id] == RowFor(LastWrite(team.members, id).value, team.teamName);
    }
    forall m | m in want
      ensures m in got
    {
      var id :| id in MemberIds(team.members)
        && m == TeamMember(id, LastWrite(team.members, id).value.username, LastWrite(team.members, id).value.isActive);
      assert st'.users[id] == RowFor(LastWrite(team.members, id).value, team.teamName);
    }
  }

  /** SetUserActive: NOT_FOUND for an unknown user; otherwise only that
      user's active flag changes and the updated user is returned. */
  function SetUserActive(st: State, userId: string, isActive: bool): (r: Result<Committed<User>>)
    ensures r.Ok? <==> userId in st.users
    ensures r.Err? ==> r.failure == App(NewNotFoundError("user not found", Some(NoRows)))
    ensures r.Ok? ==>
      var st' := r.value.state;
      && st'.users.Keys == st.users.Keys
      && st'.users[userId].isActive == isActive
      && st'.users[userId].username == st.users[userId].username
      && st'.users[userId].teamName == st.users[userId].teamName
      && (forall u :: u in st.users && u != userId ==> st'.users[u] == st.users[u])
      && st'.teams == st.teams && st'.userOrder == st.userOrder
      && st'.prs == st.prs && st'.reviewers == st.reviewers
      && r.value.value == User(userId, st'.users[userId].username, st'.users[userId].teamName, isActive)
  {
    if userId !in st.users then Err(App(NewNotFoundError("user not found", Some(NoRows))))
    else
      var row := st.users[userId].(isActive := isActive);
      var st' := st.(users := st.users[userId := row]);
      Ok(Committed(st', User(userId, row.username, row.teamName, row.isActive)))
  }

  // ----------------------------------------------------- candidate pools

  /** Whether a user may be offered as a candidate: a member of `team`,
      active, and not excluded. */
  predicate Eligible(users: map<string, UserRow>, team: string, exclusion: set<string>, id: string)
  {
    id in users && users[id].teamName == team && users[id].isActive && id !in exclusion
  }

  /** The scan of listActiveTeamMembersTx: eligible ids in scan order. */
  function FilterEligible(order: seq<string>, users: map<string, UserRow>, team: string, exclusion: set<string>)
    : (r: seq<string>)
    ensures forall id :: id in r <==> id in order && Eligible(users, team, exclusion, id)
    ensures NoDup(order) ==> NoDup(r)
    ensures |r| <= |order|
    decreases |order|
  {
    if |order| == 0 then []
    else
      var rest := FilterEligible(order[1..], users, team, exclusion);
      assert forall id :: id in order <==> id == order[0] || id in order[1..] by {
        assert order == [order[0]] + order[1..];
      }
      if Eligible(users, team, exclusion, order[0]) then
        assert NoDup(order) ==> NoDup([order[0]] + rest) by {
          if NoDup(order) {
            NoDupTail(order);
            NoDupCons([order[0]] + rest);
            assert ([order[0]] + rest)[1..] == rest;
          }
        }
        [order[0]] + rest
      else
        assert NoDup(order) ==> NoDup(order[1..]) by {
          if NoDup(order) {
            NoDupTail(order);
          }
        }
        rest
  }

  /** listActiveTeamMembersTx: active members of `team` not in `excludes`;
      an empty id in `excludes` excludes nobody. */
  function ActiveTeamMembers(st: State, team: string, excludes: set<string>): (r: seq<string>)
    ensures forall id :: id in r <==>
      && id in st.userOrder && id in st.users
      && st.users[id].teamName == team && st.users[id].isActive
      && (id == "" || id !in excludes)
    ensures NoDup(st.userOrder) ==> NoDup(r)
  {
    FilterEligible(st.userOrder, st.users, team, excludes - {""})
  }

  // ------------------------------------------------------- pull requests

  /** The constraint names PostgreSQL gives the keys involved, and the
      reviewer table a foreign-key violation names. */
  const PullRequestsKey: string := "pull_requests_pkey"
  const ReviewersKey: string := "pull_request_reviewers_pkey"
  const ReviewerUserKey: string := "pull_request_reviewers_reviewer_id_fkey"
  const ReviewersTable: string := "pull_request_reviewers"

  /** Inserts reviewer rows one at a time on top of `present`; the first
      row naming no user or repeating a present row aborts. */
  function InsertReviewers(users: map<string, UserRow>, rows: seq<string>, present: set<string>)
    : (r: Result<set<string>>)
    ensures r.Ok? <==> NoDup(rows) && Elems(rows) <= users.Keys && Elems(rows) !! present
    ensures r.Ok? ==> r.value == present + Elems(rows)
    ensures r.Err? ==> r.failure.Database?
    decreases |rows|
  {
    if |rows| == 0 then Ok(present)
    else
      NoDupCons(rows);
      assert rows == [rows[0]] + rows[1..];
      assert Elems(rows) == {rows[0]} + Elems(rows[1..]);
      if rows[0] !in users then Err(Database(ForeignKeyViolation(ReviewersTable, ReviewerUserKey)))
      else if rows[0] in present then Err(Database(UniqueViolation(ReviewersKey)))
      else InsertReviewers(users, rows[1..], present + {rows[0]})
  }

  /** The pool CreatePullRequest hands the picker: active members of the
      author's team other than the author. */
  function CreationPool(st: State, authorId: string): seq<string>
    requires authorId in st.users
  {
    ActiveTeamMembers(st, st.users[authorId].teamName, {authorId})
  }

  /** CreatePullRequest: NOT_FOUND for an unknown author, then PR_EXISTS for
      a taken id; otherwise an OPEN pull request created at `now` whose
      reviewers are what `pick` returns for the creation pool and limit 2.
      A pick the reviewer table rejects rolls the whole creation back. */
  function CreatePullRequest(st: State, input: CreatePullRequestInput,
                             pick: (seq<string>, int) -> seq<string>, now: nat)
    : (r: Result<Committed<PullRequest>>)
    ensures input.authorId !in st.users ==>
      r == Err(App(NewNotFoundError("author not found", Some(NoRows))))
    ensures input.authorId in st.users && input.pullRequestId in st.prs ==>
      r == Err(App(NewPRExistsError(Some(UniqueViolation(PullRequestsKey)))))
    ensures input.authorId in st.users && input.pullRequestId !in st.prs ==>
      var chosen := pick(CreationPool(st, input.authorId), 2);
      (r.Ok? <==> NoDup(chosen) && Elems(chosen) <= st.users.Keys)
    ensures input.authorId in st.users && input.pullRequestId !in st.prs && r.Err? ==>
      r.failure.Database?
    ensures r.Ok? ==>
      var st' := r.value.state;
      var id := input.pullRequestId;
      && input.authorId in st.users && id !in st.prs
      && st'.teams == st.teams && st'.users == st.users && st'.userOrder == st.userOrder
      && st'.prs.Keys == st.prs.Keys + {id}
      && (forall p :: p in st.prs ==> st'.prs[p] == st.prs[p] && ReviewersOf(st', p) == ReviewersOf(st, p))
      && st'.prs[id] == PullRequestRow(input.pullRequestName, input.authorId, Open, now, None)
      && ReviewersOf(st', id) == Elems(pick(CreationPool(st, input.authorId), 2))
      && st'.prs == st.prs[id := st'.prs[id]]
      && st'.reviewers == st.reviewers[id := ReviewersOf(st', id)]
      && r.value.value == PullRequestView(st', id)
  {
    if input.authorId !in st.users then
      Err(App(NewNotFoundError("author not found", Some(NoRows))))
    else if input.pullRequestId in st.prs then
      Err(App(NewPRExistsError(Some(UniqueViolation(PullRequestsKey)))))
    else
      var chosen := pick(CreationPool(st, input.authorId), 2);
      match InsertReviewers(st.users, chosen, {})
      case Err(f) => Err(f)
      case Ok(reviewerSet) =>
        var row := PullRequestRow(input.pullRequestName, input.authorId, Open, now, None);
        var st' := st.(prs := st.prs[input.pullRequestId := row],
                       reviewers := st.reviewers[input.pullRequestId := reviewerSet]);
        Ok(Committed(st', PullRequestView(st', input.pullRequestId)))
  }

  /** MergePullRequest: NOT_FOUND for an unknown id; otherwise the status
      becomes MERGED and the merge time is set to `now` only if it was
      unset. Nothing else changes. */
  function MergePullRequest(st: State, prId: string, now: nat): (r: Result<Committed<PullRequest>>)
    ensures r.Ok? <==> prId in st.prs
    ensures r.Err? ==> r.failure == App(NewNotFoundError("pull request not found", Some(NoRows)))
    ensures r.Ok? ==>
      var st' := r.value.state;
      && st'.prs.Keys == st.prs.Keys
      && st'.prs[prId].status == Merged
      && st'.prs[prId].mergedAt == (if st.prs[prId].mergedAt.Some? then st.prs[prId].mergedAt else Some(now))
      && st'.prs[prId].name == st.prs[prId].name
      && st'.prs[prId].authorId == st.prs[prId].authorId
      && st'.prs[prId].createdAt == st.prs[prId].createdAt
      && (forall p :: p in st.prs && p != prId ==> st'.prs[p] == st.prs[p])
      && st'.teams == st.teams && st'.users == st.users && st'.userOrder == st.userOrder
      && st'.reviewers == st.reviewers
      && r.value.value == PullRequestView(st', prId)
  {
    if prId !in st.prs then Err(App(NewNotFoundError("pull request not found", Some(NoRows))))
    else
      var row := st.prs[prId];
      var mergedAt := if row.mergedAt.Some? then row.mergedAt else Some(now);
      var st' := st.(prs := st.prs[prId := row.(status := Merged, mergedAt := mergedAt)]);
      Ok(Committed(st', PullRequestView(st', prId)))
  }

  /** The first four checks of ReassignReviewer all pass: the pull request
      exists and is open, and the old reviewer is a user assigned to it. */
  predicate ReassignChecksPass(st: State, prId: string, oldId: string)
  {
    && prId in st.prs
    && st.prs[prId].status == Open
    && oldId in st.users
    && oldId in ReviewersOf(st, prId)
  }

  /** The pool ReassignReviewer hands the picker: active members of the old
      reviewer's team other than the old reviewer and the assigned ones. */
  function ReassignPool(st: State, prId: string, oldId: string): seq<string>
    requires oldId in st.users
  {
    ActiveTeamMembers(st, st.users[oldId].teamName, {oldId} + ReviewersOf(st, prId))
  }

  /** What a successful reassignment returns: the refreshed pull request
      and the id that replaced the old reviewer. */
  datatype Reassignment = Reassignment(pr: PullRequest, replacedBy: string)

  /** ReassignReviewer: the checks run in order NOT_FOUND (pull request),
      PR_MERGED, NOT_FOUND (reviewer), NOT_ASSIGNED, NO_CANDIDATE; then the
      old reviewer's row is deleted and one for the picked id inserted. */
  function ReassignReviewer(st: State, prId: string, oldId: string,
                            pickOne: seq<string> -> (string, bool))
    : (r: Result<Committed<Reassignment>>)
    ensures prId !in st.prs ==>
      r == Err(App(NewNotFoundError("pull request not found", Some(NoRows))))
    ensures prId in st.prs && st.prs[prId].status == Merged ==>
      r == Err(App(NewPRMergedError()))
    ensures prId in st.prs && st.prs[prId].status == Open && oldId !in st.users ==>
      r == Err(App(NewNotFoundError("reviewer not found", Some(NoRows))))
    ensures prId in st.prs && st.prs[prId].status == Open && oldId in st.users
            && oldId !in ReviewersOf(st, prId) ==>
      r == Err(App(NewNotAssignedError()))
    ensures ReassignChecksPass(st, prId, oldId) && !pickOne(ReassignPool(st, prId, oldId)).1 ==>
      r == Err(App(NewNoCandidateError()))
    ensures ReassignChecksPass(st, prId, oldId) && pickOne(ReassignPool(st, prId, oldId)).1 ==>
      var chosen := pickOne(ReassignPool(st, prId, oldId)).0;
      && (r.Ok? <==> chosen in st.users && chosen !in ReviewersOf(st, prId) - {oldId})
      && (r.Err? ==> r.failure.Database?)
    ensures r.Ok? ==>
      var chosen := r.value.value.replacedBy;
      && ReassignChecksPass(st, prId, oldId)
      && pickOne(ReassignPool(st, prId, oldId)) == (chosen, true)
      && chosen in st.users
      && chosen !in ReviewersOf(st, prId) - {oldId}
      && r.value.state == st.(reviewers := st.reviewers[prId := ReviewersOf(st, prId) - {oldId} + {chosen}])
      && r.value.value.pr == PullRequestView(r.value.state, prId)
  {
    if prId !in st.prs then
      Err(App(NewNotFoundError("pull request not found", Some(NoRows))))
    else if st.prs[prId].status == Merged then
      Err(App(NewPRMergedError()))
    else if oldId !in st.users then
      Err(App(NewNotFoundError("reviewer not found", Some(NoRows))))
    else if oldId !in ReviewersOf(st, prId) then
      Err(App(NewNotAssignedError()))
    else
      var (chosen, ok) := pickOne(ReassignPool(st, prId, oldId));
      if !ok then Err(App(NewNoCandidateError()))
      else ReplaceReviewer(st, prId, oldId, chosen)
  }

  /** The writes of ReassignReviewer once `chosen` is picked: the old
      reviewer's row is deleted and one for `chosen` inserted, which the
      database refuses for an unknown or already assigned id. */
  function ReplaceReviewer(st: State, prId: string, oldId: string, chosen: string)
    : (r: Result<Committed<Reassignment>>)
    requires prId in st.prs
    ensures r.Ok? <==> chosen in st.users && chosen !in ReviewersOf(st, prId) - {oldId}
    ensures r.Err? ==> r.failure.Database?
    ensures r.Ok? ==>
      var st' := st.(reviewers := st.reviewers[prId := ReviewersOf(st, prId) - {oldId} + {chosen}]);
      r.value == Committed(st', Reassignment(PullRequestView(st', prId), chosen))
  {
    assert Elems([chosen]) == {chosen};
    match InsertReviewers(st.users, [chosen], ReviewersOf(st, prId) - {oldId})
    case Err(f) => Err(f)
    case Ok(reviewerSet) =>
      var st' := st.(reviewers := st.reviewers[prId := reviewerSet]);
      Ok(Committed(st', Reassignment(PullRequestView(st', prId), chosen)))
  }

  // ------------------------------------------------- the state machine

  /** The mutating operations a caller can issue. */
  datatype Op =
    | CreateTeamOp(team: Team)
    | SetUserActiveOp(userId: string, isActive: bool)
    | CreatePullRequestOp(input: CreatePullRequestInput)
    | MergePullRequestOp(prId: string)
    | ReassignReviewerOp(prId: string, oldId: string)

  /** The state a caller observes after a transaction: the committed one,
      or the old one when the transaction rolled back. */
  function StateAfter<T>(st: State, r: Result<Committed<T>>): State
  {
    match r
    case Ok(c) => c.state
    case Err(_) => st
  }

  /** One step of the machine, with the pickers and the clock reading the
      step uses. */
  function Step(st: State, op: Op, pick: (seq<string>, int) -> seq<string>,
                pickOne: seq<string> -> (string, bool), now: nat): State
  {
    match op
    case CreateTeamOp(team) => StateAfter(st, CreateTeam(st, team))
    case SetUserActiveOp(userId, isActive) => StateAfter(st, SetUserActive(st, userId, isActive))
    case CreatePullRequestOp(input) => StateAfter(st, CreatePullRequest(st, input, pick, now))
    case MergePullRequestOp(prId) => StateAfter(st, MergePullRequest(st, prId, now))
    case ReassignReviewerOp(prId, oldId) => StateAfter(st, ReassignReviewer(st, prId, oldId, pickOne))
  }
}

=== FILE: store_properties.dfy ===
/** Properties of the store's transactions: the invariant `Valid` they all
    keep, what creation and reassignment guarantee when the picker honours
    its contract, idempotent merging, frozen merged pull requests, and the
    two places where the code does not keep an author off their own pull
    request. */
module StoreProperties {
  import opened Collections
  import opened Errors
  import opened Models
  import opened Selector
  import opened Store

  // ------------------------------------------------------------ validity

  lemma EmptyIsValid()
    ensures Valid(Empty)
  {
  }

  /** Replacing the user tables by ones that keep every existing user, stay
      duplicate-free and in step, and place every user in a known team keeps
      the invariant. */
  lemma UsersChangeKeepsValid(st: State, teams: set<string>, users: map<string, UserRow>, userOrder: seq<string>)
    requires Valid(st)
    requires st.users.Keys <= users.Keys
    requires NoDup(userOrder)
    requires forall u :: u in userOrder <==> u in users
    requires forall u :: u in users ==> users[u].teamName in teams
    ensures Valid(st.(teams := teams, users := users, userOrder := userOrder))
  {
  }

  lemma CreateTeamPreservesValid(st: State, team: Team)
    requires Valid(st)
    ensures CreateTeam(st, team).Ok? ==> Valid(CreateTeam(st, team).value.state)
  {
    var r := CreateTeam(st, team);
    if r.Ok? {
      var st' := r.value.state;
      var written := UpsertAll(st.users, st.userOrder, team.members, team.teamName);
      var teams := st.teams + {team.teamName};
      assert st' == st.(teams := teams, users := written.0, userOrder := written.1);
      forall u | u in written.0
        ensures written.0[u].teamName in teams
      {
        if u in MemberIds(team.members) {
          assert written.0[u] == RowFor(LastWrite(team.members, u).value, team.teamName);
        } else {
          assert written.0[u] == st.users[u];
        }
      }
      UsersChangeKeepsValid(st, teams, written.0, written.1);
    }
  }

  lemma SetUserActivePreservesValid(st: State, userId: string, isActive: bool)
    requires Valid(st)
    ensures SetUserActive(st, userId, isActive).Ok? ==> Valid(SetUserActive(st, userId, isActive).value.state)
  {
  }

  lemma ReviewersAreUsers(st: State, prId: string)
    requires Valid(st)
    ensures ReviewersOf(st, prId) <= st.users.Keys
  {
  }

  /** Giving a stored pull request a reviewer set of existing users keeps
      the invariant. */
  lemma SetReviewersKeepsValid(st: State, prId: string, reviewerSet: set<string>)
    requires Valid(st)
    requires prId in st.prs
    requires reviewerSet <= st.users.Keys
    ensures Valid(st.(reviewers := st.reviewers[prId := reviewerSet]))
  {
  }

  /** Storing a new open pull request by an existing author, with a
      reviewer set of existing users, keeps the invariant. */
  lemma AddPullRequestKeepsValid(st: State, prId: string, row: PullRequestRow, reviewerSet: set<string>)
    requires Valid(st)
    requires prId !in st.prs
    requires row.authorId in st.users && row.status == Open && row.mergedAt.None?
    requires reviewerSet <= st.users.Keys
    ensures Valid(st.(prs := st.prs[prId := row], reviewers := st.reviewers[prId := reviewerSet]))
  {
  }

  lemma CreatePullRequestPreservesValid(st: State, input: CreatePullRequestInput,
                                        pick: (seq<string>, int) -> seq<string>, now: nat)
    requires Valid(st)
    ensures CreatePullRequest(st, input, pick, now).Ok? ==> Valid(CreatePullRequest(st, input, pick, now).value.state)
  {
    var r := CreatePullRequest(st, input, pick, now);
    if r.Ok? {
      var id := input.pullRequestId;
      var row := PullRequestRow(input.pullRequestName, input.authorId, Open, now, None);
      var reviewerSet := Elems(pick(CreationPool(st, input.authorId), 2));
      assert r.value.state == st.(prs := st.prs[id := row], reviewers := st.reviewers[id := reviewerSet]);
      AddPullRequestKeepsValid(st, id, row, reviewerSet);
    }
  }

  /** Replacing a stored row by one whose author exists and whose merge
      time is set exactly when it is merged keeps the invariant. */
  lemma ReplaceRowKeepsValid(st: State, prId: string, row: PullRequestRow)
    requires Valid(st)
    requires prId in st.prs
    requires row.authorId in st.users
    requires row.status == Merged <==> row.mergedAt.Some?
    ensures Valid(st.(prs := st.prs[prId := row]))
  {
  }

  lemma MergePullRequestPreservesValid(st: State, prId: string, now: nat)
    requires Valid(st)
    ensures MergePullRequest(st, prId, now).Ok? ==> Valid(MergePullRequest(st, prId, now).value.state)
  {
    if prId in st.prs {
      var row := st.prs[prId];
      var merged := row.(status := Merged, mergedAt := if row.mergedAt.Some? then row.mergedAt else Some(now));
      assert MergePullRequest(st, prId, now).value.state == st.(prs := st.prs[prId := merged]);
      ReplaceRowKeepsValid(st, prId, merged);
    }
  }

  lemma ReassignReviewerPreservesValid(st: State, prId: string, oldId: string,
                                       pickOne: seq<string> -> (string, bool))
    requires Valid(st)
    ensures ReassignReviewer(st, prId, oldId, pickOne).Ok? ==> Valid(ReassignReviewer(st, prId, oldId, pickOne).value.state)
  {
    var r := ReassignReviewer(st, prId, oldId, pickOne);
    ReassignWritesReviewers(st, prId, oldId, pickOne);
    if r.Ok? {
      ReplaceKeepsValid(st, prId, oldId, r.value.value.replacedBy);
    }
  }

  /** Swapping a known user in for a reviewer keeps the invariant. */
  lemma ReplaceKeepsValid(st: State, prId: string, oldId: string, chosen: string)
    requires Valid(st)
    requires prId in st.prs && chosen in st.users
    ensures Valid(st.(reviewers := st.reviewers[prId := ReviewersOf(st, prId) - {oldId} + {chosen}]))
  {
    ReviewersAreUsers(st, prId);
    SetReviewersKeepsValid(st, prId, ReviewersOf(st, prId) - {oldId} + {chosen});
  }

  /** A successful reassignment only rewrites the reviewer set of its pull
      request, adding a known user. */
  lemma ReassignWritesReviewers(st: State, prId: string, oldId: string,
                                pickOne: seq<string> -> (string, bool))
    ensures
      var r := ReassignReviewer(st, prId, oldId, pickOne);
      r.Ok? ==>
        && prId in st.prs
        && r.value.value.replacedBy in st.users
        && r.value.state == st.(reviewers := st.reviewers[prId := ReviewersOf(st, prId) - {oldId} + {r.value.value.replacedBy}])
  {
  }

  /** Every transaction, whatever the pickers return, keeps `Valid`. */
  lemma StepPreservesValid(st: State, op: Op, pick: (seq<string>, int) -> seq<string>,
                           pickOne: seq<string> -> (string, bool), now: nat)
    requires Valid(st)
    ensures Valid(Step(st, op, pick, pickOne, now))
  {
    match op
    case CreateTeamOp(team) => CreateTeamPreservesValid(st, team);
    case SetUserActiveOp(userId, isActive) => SetUserActivePreservesValid(st, userId, isActive);
    case CreatePullRequestOp(input) => CreatePullRequestPreservesValid(st, input, pick, now);
    case MergePullRequestOp(prId) => MergePullRequestPreservesValid(st, prId, now);
    case ReassignReviewerOp(prId, oldId) => ReassignReviewerPreservesValid(st, prId, oldId, pickOne);
  }

  // -------------------------------------------------------------- teams

  /** Creating a team and reading it back yields exactly the listed members,
      last writer winning; creating it again is refused with TEAM_EXISTS. */
  lemma CreatedTeamReadsBack(st: State, team: Team)
    requires Valid(st)
    requires team.teamName !in st.teams
    ensures CreateTeam(st, team).Ok?
    ensures GetTeam(CreateTeam(st, team).value.state, team.teamName)
            == Ok(TeamRoster(team.teamName, LastWrites(team.members)))
    ensures CreateTeam(CreateTeam(st, team).value.state, team)
            == Err(App(NewTeamExistsError(None)))
  {
    var r := CreateTeam(st, team);
    assert GetTeam(r.value.state, team.teamName) == Ok(r.value.value);
  }

  // ------------------------------------------------- pull request creation

  /** Under the picker contract, creation succeeds exactly when the author
      exists and the id is free; the new pull request is OPEN and has
      min(2, |pool|) distinct reviewers, each an active member of the
      author's team, and the author is not among them unless the author's
      id is empty. */
  lemma CreationUnderPickContract(st: State, input: CreatePullRequestInput,
                                  pick: (seq<string>, int) -> seq<string>, now: nat)
    requires NoDup(st.userOrder)
    requires PickContract(pick)
    requires input.authorId in st.users && input.pullRequestId !in st.prs
    ensures CreatePullRequest(st, input, pick, now).Ok?
    ensures
      var st' := CreatePullRequest(st, input, pick, now).value.state;
      var picked := ReviewersOf(st', input.pullRequestId);
      var pool := CreationPool(st, input.authorId);
      && st'.prs[input.pullRequestId].status == Open
      && |picked| == Min(2, |pool|) <= 2
      && (forall u :: u in picked ==>
            && u in pool
            && u in st.users && st.users[u].isActive
            && st.users[u].teamName == st.users[input.authorId].teamName)
      && (input.authorId != "" ==> input.authorId !in picked)
  {
    var pool := CreationPool(st, input.authorId);
    PickContractSelection(pick, pool, 2);
    var chosen := pick(pool, 2);
    assert Elems(chosen) <= st.users.Keys by {
      forall u | u in Elems(chosen)
        ensures u in st.users
      {
        assert u in Elems(pool);
      }
    }
    assert forall u :: u in Elems(chosen) ==> u in pool;
  }

  /** The author's id may be empty, and an empty id is never excluded: a
      lone active author with the empty id is assigned to review their own
      pull request, whatever the random generator does. */
  lemma EmptyAuthorIdReviewsOwnPullRequest(draws: Draws)
    ensures
      var st := State({"core"}, map["" := UserRow("Eve", "core", true)], [""], map[], map[]);
      var r := CreatePullRequest(st, CreatePullRequestInput("pr-1", "Add search", ""),
                                 (ids, limit) => Pick(ids, limit, draws), 0);
      r.Ok? && ReviewersOf(r.value.state, "pr-1") == {""}
  {
    var st := State({"core"}, map["" := UserRow("Eve", "core", true)], [""], map[], map[]);
    var pool := CreationPool(st, "");
    assert pool == [""] by {
      assert "" in pool;
      assert NoDup(st.userOrder);
      assert |pool| <= 1;
    }
    var chosen := Pick(pool, 2, draws);
    assert chosen == [""] by {
      assert |chosen| == 1;
      assert chosen[0] in pool;
    }
    assert Elems(chosen) == {""};
  }

  // ------------------------------------------------------------- merging

  /** Merging stamps the merge time once: a second merge at any later time
      succeeds and changes nothing. */
  lemma MergeIsIdempotent(st: State, prId: string, first: nat, second: nat)
    requires prId in st.prs
    ensures
      var r1 := MergePullRequest(st, prId, first);
      var r2 := MergePullRequest(r1.value.state, prId, second);
      && r1.Ok? && r2.Ok?
      && r2.value.state == r1.value.state
      && r2.value.value.mergedAt == r1.value.value.mergedAt
      && r1.value.value.mergedAt == (if st.prs[prId].mergedAt.None? then Some(first) else st.prs[prId].mergedAt)
      && r2.value.value.status == Merged
  {
    var s1 := MergePullRequest(st, prId, first).value.state;
    var s2 := MergePullRequest(s1, prId, second).value.state;
    assert s2.prs[prId] == s1.prs[prId];
    assert s2.prs == s1.prs;
  }

  /** A pull request left exactly as it was between two states. */
  ghost predicate Untouched(st: State, st': State, prId: string)
    requires prId in st.prs
  {
    && prId in st'.prs
    && st'.prs[prId] == st.prs[prId]
    && ReviewersOf(st', prId) == ReviewersOf(st, prId)
  }

  /** A merged pull request as Valid stores it. */
  predicate IsMerged(st: State, prId: string)
  {
    prId in st.prs && st.prs[prId].status == Merged && st.prs[prId].mergedAt.Some?
  }

  /** Once merged, a pull request never changes again: no operation alters
      its row or its reviewer set. */
  lemma MergedIsFrozen(st: State, op: Op, pick: (seq<string>, int) -> seq<string>,
                       pickOne: seq<string> -> (string, bool), now: nat, prId: string)
    requires Valid(st)
    requires prId in st.prs && st.prs[prId].status == Merged
    ensures Untouched(st, Step(st, op, pick, pickOne, now), prId)
  {
    assert IsMerged(st, prId);
    StepLeavesMerged(st, op, pick, pickOne, now, prId);
  }

  lemma StepLeavesMerged(st: State, op: Op, pick: (seq<string>, int) -> seq<string>,
                         pickOne: seq<string> -> (string, bool), now: nat, prId: string)
    requires IsMerged(st, prId)
    ensures Untouched(st, Step(st, op, pick, pickOne, now), prId)
  {
    match op
    case CreateTeamOp(team) => CreateTeamLeavesMerged(st, team, prId);
    case SetUserActiveOp(userId, isActive) => SetUserActiveLeavesMerged(st, userId, isActive, prId);
    case CreatePullRequestOp(input) => CreationLeavesMerged(st, input, pick, now, prId);
    case MergePullRequestOp(p) => MergeLeavesMerged(st, p, now, prId);
    case ReassignReviewerOp(p, oldId) => ReassignLeavesMerged(st, p, oldId, pickOne, prId);
  }

  lemma CreateTeamLeavesMerged(st: State, team: Team, prId: string)
    requires IsMerged(st, prId)
    ensures Untouched(st, StateAfter(st, CreateTeam(st, team)), prId)
  {
  }

  lemma SetUserActiveLeavesMerged(st: State, userId: string, isActive: bool, prId: string)
    requires IsMerged(st, prId)
    ensures Untouched(st, StateAfter(st, SetUserActive(st, userId, isActive)), prId)
  {
  }

  lemma CreationLeavesMerged(st: State, input: CreatePullRequestInput,
                             pick: (seq<string>, int) -> seq<string>, now: nat, prId: string)
    requires IsMerged(st, prId)
    ensures Untouched(st, StateAfter(st, CreatePullRequest(st, input, pick, now)), prId)
  {
  }

  /** Merging again leaves an already merged pull request as it was. */
  lemma MergeLeavesMerged(st: State, p: string, now: nat, prId: string)
    requires IsMerged(st, prId)
    ensures Untouched(st, StateAfter(st, MergePullRequest(st, p, now)), prId)
  {
    if p == prId {
      var st' := StateAfter(st, MergePullRequest(st, p, now));
      assert st'.prs[prId].mergedAt == st.prs[prId].mergedAt;
    }
  }

  lemma ReassignLeavesMerged(st: State, p: string, oldId: string,
                             pickOne: seq<string> -> (string, bool), prId: string)
    requires IsMerged(st, prId)
    ensures Untouched(st, StateAfter(st, ReassignReviewer(st, p, oldId, pickOne)), prId)
  {
  }

  // --------------------------------------------------------- reassignment

  /** A successful reassignment keeps the reviewer count of every pull
      request, whatever the picker returned. */
  lemma ReassignKeepsReviewerCount(st: State, prId: string, oldId: string,
                                   pickOne: seq<string> -> (string, bool), p: string)
    requires ReassignReviewer(st, prId, oldId, pickOne).Ok?
    ensures |ReviewersOf(ReassignReviewer(st, prId, oldId, pickOne).value.state, p)| == |ReviewersOf(st, p)|
  {
    var r := ReassignReviewer(st, prId, oldId, pickOne);
    if p == prId {
      var before := ReviewersOf(st, prId);
      var chosen := r.value.value.replacedBy;
      assert oldId in before;
      assert |before - {oldId}| == |before| - 1;
      assert chosen !in before - {oldId};
    }
  }

  /** Under the picker contract, and with no user holding the empty id,
      a reassignment whose checks pass succeeds exactly when the pool is
      non-empty. The replacement is an active member of the old reviewer's
      team, neither the old reviewer nor already assigned, and the count
      of reviewers is kept. */
  lemma ReassignUnderPickOneContract(st: State, prId: string, oldId: string,
                                     pickOne: seq<string> -> (string, bool))
    requires PickOneContract(pickOne)
    requires "" !in st.users
    requires ReassignChecksPass(st, prId, oldId)
    ensures
      var r := ReassignReviewer(st, prId, oldId, pickOne);
      && (r.Ok? <==> |ReassignPool(st, prId, oldId)| > 0)
      && (r.Err? ==> r.failure == App(NewNoCandidateError()))
    ensures
      var r := ReassignReviewer(st, prId, oldId, pickOne);
      r.Ok? ==>
        var chosen := r.value.value.replacedBy;
        && chosen in st.users && st.users[chosen].isActive
        && st.users[chosen].teamName == st.users[oldId].teamName
        && chosen != oldId
        && chosen !in ReviewersOf(st, prId)
        && ReviewersOf(r.value.state, prId) == ReviewersOf(st, prId) - {oldId} + {chosen}
        && |ReviewersOf(r.value.state, prId)| == |ReviewersOf(st, prId)|
  {
    var r := ReassignReviewer(st, prId, oldId, pickOne);
    PoolChoice(st, prId, oldId, pickOne);
    if r.Ok? {
      ReassignKeepsReviewerCount(st, prId, oldId, pickOne, prId);
    }
  }

  /** What a picker honouring its contract finds in the reassignment pool. */
  lemma PoolChoice(st: State, prId: string, oldId: string, pickOne: seq<string> -> (string, bool))
    requires PickOneContract(pickOne)
    requires "" !in st.users
    requires oldId in st.users
    ensures
      var pool := ReassignPool(st, prId, oldId);
      var c := pickOne(pool);
      && (c.1 <==> |pool| > 0)
      && (c.1 ==>
            && c.0 in st.users && st.users[c.0].isActive
            && st.users[c.0].teamName == st.users[oldId].teamName
            && c.0 != oldId && c.0 !in ReviewersOf(st, prId))
  {
    var pool := ReassignPool(st, prId, oldId);
    if pickOne(pool).1 {
      assert pickOne(pool).0 in pool;
    }
  }

  /** The author a and the old reviewer b, both active, in one team; b
      reviews a's pull request. */
  function AuthorAndReviewerState(): State
  {
    State({"core"},
          map["a" := UserRow("Alice", "core", true), "b" := UserRow("Bob", "core", true)],
          ["a", "b"],
          map["pr-1" := PullRequestRow("Add search", "a", Open, 0, None)],
          map["pr-1" := {"b"}])
  }

  /** The author is the only candidate to replace b. */
  lemma AuthorIsOnlyCandidate()
    ensures ReassignPool(AuthorAndReviewerState(), "pr-1", "b") == ["a"]
  {
    var pool := ReassignPool(AuthorAndReviewerState(), "pr-1", "b");
    assert "a" in pool;
    assert "b" !in pool;
    assert |pool| <= 2;
  }

  /** Reassignment does not exclude the author: whenever the author, with a
      non-empty id, is the only candidate to replace the old reviewer, the
      author becomes a reviewer of their own pull request, whatever the
      random generator does. */
  lemma ReassignMayAssignAuthor(st: State, prId: string, oldId: string, draws: Draws)
    requires ReassignChecksPass(st, prId, oldId)
    requires st.prs[prId].authorId != ""
    requires ReassignPool(st, prId, oldId) == [st.prs[prId].authorId]
    ensures
      var r := ReassignReviewer(st, prId, oldId, ids => PickOne(ids, draws));
      && r.Ok?
      && r.value.value.replacedBy == st.prs[prId].authorId
      && r.value.value.pr.authorId == st.prs[prId].authorId
      && st.prs[prId].authorId in r.value.value.pr.assignedReviewers
  {
    var author := st.prs[prId].authorId;
    assert PickOne([author], draws) == (author, true);
    assert author in ReassignPool(st, prId, oldId);
  }

  /** The instance: in AuthorAndReviewerState, replacing b assigns the
      author a. */
  lemma AuthorReviewsOwnPullRequest(draws: Draws)
    ensures
      var r := ReassignReviewer(AuthorAndReviewerState(), "pr-1", "b", ids => PickOne(ids, draws));
      r.Ok? && r.value.value.replacedBy == "a" && "a" in r.value.value.pr.assignedReviewers
  {
    AuthorIsOnlyCandidate();
    ReassignMayAssignAuthor(AuthorAndReviewerState(), "pr-1", "b", draws);
  }

  /** A valid state where the empty id reviews pr-1 alongside b, and is
      the only other active member of b's team. */
  function EmptyIdReviewerState(): State
  {
    State({"infra", "core"},
          map["a" := UserRow("Alice", "infra", true), "b" := UserRow("Bob", "core", true),
              "" := UserRow("Nobody", "core", true)],
          ["a", "b", ""],
          map["pr-1" := PullRequestRow("Add search", "a", Open, 0, None)],
          map["pr-1" := {"b", ""}])
  }

  lemma EmptyIdReviewerStateIsValid()
    ensures Valid(EmptyIdReviewerState())
  {
  }

  /** The empty id is offered even though it already reviews pr-1. */
  lemma EmptyIdIsOnlyCandidate()
    ensures ReassignPool(EmptyIdReviewerState(), "pr-1", "b") == [""]
  {
    var st := EmptyIdReviewerState();
    var pool := ReassignPool(st, "pr-1", "b");
    assert "" in pool;
    assert "a" !in pool && "b" !in pool;
    assert NoDup(pool);
    assert |pool| <= 1;
  }

  /** Because the empty id is never excluded, a reassignment can fail with a
      database error although the pool is non-empty: the random PickOne
      offers the empty id, which already reviews the pull request. */
  lemma EmptyIdCandidateBlocksReassignment(draws: Draws)
    ensures
      var r := ReassignReviewer(EmptyIdReviewerState(), "pr-1", "b", ids => PickOne(ids, draws));
      && |ReassignPool(EmptyIdReviewerState(), "pr-1", "b")| > 0
      && r.Err? && r.failure.Database?
  {
    EmptyIdIsOnlyCandidate();
    assert PickOne([""], draws) == ("", true);
  }

  // ------------------------------------------------- policy invariants

  /** No pull request has more than two reviewers. */
  ghost predicate AtMostTwoReviewers(st: State)
  {
    forall p :: p in st.prs ==> |ReviewersOf(st, p)| <= 2
  }

  /** Four active users of one team and no pull requests. */
  function FourMemberState(): State
  {
    State({"core"},
          map["a" := UserRow("Alice", "core", true), "b" := UserRow("Bob", "core", true),
              "c" := UserRow("Carol", "core", true), "d" := UserRow("Dan", "core", true)],
          ["a", "b", "c", "d"], map[], map[])
  }

  /** The store does not cap what the picker returns: a picker that ignores
      the limit gives the new pull request three reviewers, so the bound
      below needs the picker contract. */
  lemma OverlongPickIsStored()
    ensures
      var r := CreatePullRequest(FourMemberState(), CreatePullRequestInput("pr-1", "Add search", "a"),
                                 (ids, limit) => ["b", "c", "d"], 0);
      && r.Ok?
      && ReviewersOf(r.value.state, "pr-1") == {"b", "c", "d"}
      && !AtMostTwoReviewers(r.value.state)
  {
    var chosen := ["b", "c", "d"];
    assert NoDup(chosen);
    assert Elems(chosen) == {"b", "c", "d"};
  }

  /** With pickers honouring their contract, every step keeps the bound of
      two reviewers per pull request. */
  lemma StepKeepsReviewerBound(st: State, op: Op, pick: (seq<string>, int) -> seq<string>,
                               pickOne: seq<string> -> (string, bool), now: nat)
    requires NoDup(st.userOrder)
    requires PickContract(pick)
    requires AtMostTwoReviewers(st)
    ensures AtMostTwoReviewers(Step(st, op, pick, pickOne, now))
  {
    if op.CreatePullRequestOp? {
      CreationKeepsReviewerBound(st, op.input, pick, now);
    }
    StepKeepsReviewerBoundAfterCreation(st, op, pick, pickOne, now);
  }

  /** The dispatch behind StepKeepsReviewerBound, given that creation keeps
      the bound. */
  lemma StepKeepsReviewerBoundAfterCreation(st: State, op: Op, pick: (seq<string>, int) -> seq<string>,
                                            pickOne: seq<string> -> (string, bool), now: nat)
    requires AtMostTwoReviewers(st)
    requires op.CreatePullRequestOp? ==>
      AtMostTwoReviewers(StateAfter(st, CreatePullRequest(st, op.input, pick, now)))
    ensures AtMostTwoReviewers(Step(st, op, pick, pickOne, now))
  {
    var st' := Step(st, op, pick, pickOne, now);
    match op
    case CreateTeamOp(team) =>
      CreateTeamKeepsReviewing(st, team);
      SameReviewingKeepsPolicies(st, st');
    case SetUserActiveOp(userId, isActive) =>
      SetUserActiveKeepsReviewing(st, userId, isActive);
      SameReviewingKeepsPolicies(st, st');
    case CreatePullRequestOp(input) =>
    case MergePullRequestOp(prId) =>
      MergeKeepsReviewing(st, prId, now);
      SameReviewingKeepsPolicies(st, st');
    case ReassignReviewerOp(prId, oldId) => ReassignKeepsReviewerBound(st, prId, oldId, pickOne);
  }

  /** Two states with the same pull requests, authors and reviewer sets. */
  ghost predicate SameReviewing(st: State, st': State)
  {
    && st'.prs.Keys == st.prs.Keys
    && (forall p :: p in st.prs ==> st'.prs[p].authorId == st.prs[p].authorId)
    && st'.reviewers == st.reviewers
  }

  lemma SameReviewingKeepsPolicies(st: State, st': State)
    requires SameReviewing(st, st')
    ensures AtMostTwoReviewers(st) ==> AtMostTwoReviewers(st')
    ensures NoSelfReview(st) ==> NoSelfReview(st')
  {
    assert forall p :: ReviewersOf(st', p) == ReviewersOf(st, p);
  }

  lemma CreateTeamKeepsReviewing(st: State, team: Team)
    ensures SameReviewing(st, StateAfter(st, CreateTeam(st, team)))
  {
  }

  lemma SetUserActiveKeepsReviewing(st: State, userId: string, isActive: bool)
    ensures SameReviewing(st, StateAfter(st, SetUserActive(st, userId, isActive)))
  {
  }

  lemma MergeKeepsReviewing(st: State, prId: string, now: nat)
    ensures SameReviewing(st, StateAfter(st, MergePullRequest(st, prId, now)))
  {
  }

  lemma CreationKeepsReviewerBound(st: State, input: CreatePullRequestInput,
                                   pick: (seq<string>, int) -> seq<string>, now: nat)
    requires NoDup(st.userOrder)
    requires PickContract(pick)
    requires AtMostTwoReviewers(st)
    ensures AtMostTwoReviewers(StateAfter(st, CreatePullRequest(st, input, pick, now)))
  {
    if CreatePullRequest(st, input, pick, now).Ok? {
      CreationUnderPickContract(st, input, pick, now);
    }
  }

  lemma ReassignKeepsReviewerBound(st: State, prId: string, oldId: string,
                                   pickOne: seq<string> -> (string, bool))
    requires AtMostTwoReviewers(st)
    ensures AtMostTwoReviewers(StateAfter(st, ReassignReviewer(st, prId, oldId, pickOne)))
  {
    var r := ReassignReviewer(st, prId, oldId, pickOne);
    if r.Ok? {
      forall p | p in r.value.state.prs
        ensures |ReviewersOf(r.value.state, p)| <= 2
      {
        ReassignKeepsReviewerCount(st, prId, oldId, pickOne, p);
      }
    }
  }

  /** No author reviews their own pull request. */
  ghost predicate NoSelfReview(st: State)
  {
    forall p :: p in st.prs ==> st.prs[p].authorId !in ReviewersOf(st, p)
  }

  /** Every step but reassignment keeps authors off their own pull requests
      when the creation picker honours its contract and no user holds the
      empty id; ReassignMayAssignAuthor shows that reassignment does not. */
  lemma StepKeepsNoSelfReview(st: State, op: Op, pick: (seq<string>, int) -> seq<string>,
                              pickOne: seq<string> -> (string, bool), now: nat)
    requires Valid(st)
    requires PickContract(pick)
    requires "" !in st.users
    requires NoSelfReview(st)
    requires !op.ReassignReviewerOp?
    ensures NoSelfReview(Step(st, op, pick, pickOne, now))
  {
    if op.CreatePullRequestOp? {
      CreationKeepsNoSelfReview(st, op.input, pick, now);
    }
    StepKeepsNoSelfReviewAfterCreation(st, op, pick, pickOne, now);
  }

  /** The dispatch behind StepKeepsNoSelfReview, given that creation keeps
      authors off their pull requests. */
  lemma StepKeepsNoSelfReviewAfterCreation(st: State, op: Op, pick: (seq<string>, int) -> seq<string>,
                                           pickOne: seq<string> -> (string, bool), now: nat)
    requires NoSelfReview(st)
    requires !op.ReassignReviewerOp?
    requires op.CreatePullRequestOp? ==>
      NoSelfReview(StateAfter(st, CreatePullRequest(st, op.input, pick, now)))
    ensures NoSelfReview(Step(st, op, pick, pickOne, now))
  {
    var st' := Step(st, op, pick, pickOne, now);
    match op
    case CreateTeamOp(team) =>
      CreateTeamKeepsReviewing(st, team);
      SameReviewingKeepsPolicies(st, st');
    case SetUserActiveOp(userId, isActive) =>
      SetUserActiveKeepsReviewing(st, userId, isActive);
      SameReviewingKeepsPolicies(st, st');
    case CreatePullRequestOp(input) =>
    case MergePullRequestOp(prId) =>
      MergeKeepsReviewing(st, prId, now);
      SameReviewingKeepsPolicies(st, st');
  }

  lemma CreationKeepsNoSelfReview(st: State, input: CreatePullRequestInput,
                                  pick: (seq<string>, int) -> seq<string>, now: nat)
    requires NoDup(st.userOrder)
    requires PickContract(pick)
    requires "" !in st.users
    requires NoSelfReview(st)
    ensures NoSelfReview(StateAfter(st, CreatePullRequest(st, input, pick, now)))
  {
    if CreatePullRequest(st, input, pick, now).Ok? {
      CreationUnderPickContract(st, input, pick, now);
    }
  }
}
